=== FILE: README.md ===
# A verified model of the RaytracingFromScratch kernel

This project models the core of a small C++ path tracer in Dafny. The tracer
is built from a handful of headers:

- `interval` ranges and `ray`s;
- `vec3` algebra;
- ray intersection with spheres and with lists of objects (`hittableList`),
  which keep the closest hit;
- the `lambertian`, `metal` and `dielectric` scatter rules;
- the camera: derived geometry, ray generation, the depth-bounded recursive
  `rayColor` and the pixel and sample loops of `render`;
- the byte conversion of `writeColor`.

Arithmetic is exact, over Dafny's `real`. The infinities appear only as
interval bounds (`Intervals.Bound`).

Some functions have no definition in the model. `std::sqrt`, `std::tan`, PI
and `hitRecord::setFaceNormal` are supplied by the caller in an
`Externals.Env`. The one assumption made about them is `Elementary.IsSqrt`: a
root is non-negative and squares back to its argument. It appears as a
precondition only where a proof needs it.

Every random draw is a parameter:

- a `Materials.ScatterDraw` per bounce, holding the accepted unit sample and
  the uniform value;
- a `Cameras.SampleDraws` per camera sample, holding the pixel jitter, the
  accepted disk point and the bounce draws, indexed by the remaining depth.

Modules follow the headers:

| module | header |
|---|---|
| `Intervals` | interval.h |
| `Rays` | ray.h |
| `Vectors` | vec3.h |
| `Hittables` | sphere.h and hittableList.h |
| `Surfaces` | the material variants and the hit record |
| `Materials` | material.h |
| `Cameras` | camera.h |
| `Colors` | color.h |
| `Elementary` | the scalar functions of utils.h and `<cmath>` |

Virtual dispatch becomes datatypes:

- `Hittable` is a sphere or a list of objects.
- `Material` is one of three variants, held by value.
- A hit that does not happen is `None`. This models "the record is left
  unchanged on a miss".

## Model

| member | source | states |
|---|---|---|
| Intervals.Default | include/interval.h:15 | the default interval (+INF, -INF) contains and surrounds no real |
| Intervals.Empty | include/interval.h:46 | `empty` contains and surrounds no real, and its size is -INF |
| Intervals.Universe | include/interval.h:47 | `universe` contains and surrounds every real, and its size is +INF |
| Intervals.Interval.Size | include/interval.h:21-23 | `max - min` on the extended reals: NaN (None) exactly for equal infinite bounds; negative exactly when max < min; the plain difference for finite bounds |
| Intervals.SurroundsVersusContains | include/interval.h:26-33 | `surrounds` implies `contains`, and the two differ only at a finite end point |
| Intervals.Interval.Clamp | include/interval.h:36-38 | for min <= max, the result lies in [min, max]: it is x whenever x is contained, min when x < min and max when x > max |
| Intervals.SurroundsNarrower | include/hittableList.h:46 | lowering the upper bound, as the list scan does, only shrinks the set of surrounded values |
| Rays.At | include/ray.h:31 | `at(0)` is the origin, `at(1)` is origin + direction, and a zero direction stays at the origin |
| Rays.AtLinear | include/ray.h:31 | `at(s + t) = at(s) + t * dir` |
| Rays.AtInjective | include/ray.h:31 | with a non-zero direction, distinct parameters give distinct points |
| Vectors.MulUnitCube | include/vec3.h:88-90 | the componentwise product of two colours in [0,1]^3 stays in [0,1]^3 |
| Vectors.Div | include/vec3.h:101 | `v / t` is the vector that `t *` maps back to `v` |
| Vectors.LengthSquared | include/vec3.h:49-51 | the squared length is non-negative and zero only for the zero vector |
| Vectors.DotProperties | include/vec3.h:104-106 | `dot` is symmetric, and `lengthSquared(v) = dot(v, v)` |
| Vectors.Cross | include/vec3.h:109-113 | `cross(u, v)` is orthogonal to both u and v |
| Vectors.CrossOfOrthonormal | include/vec3.h:109-113 | the cross product of two orthogonal unit vectors is a unit vector, by Lagrange's identity |
| Vectors.UnitVector | include/vec3.h:116 | for a valid sqrt, a non-zero vector normalises to unit length, and length times the result gives the vector back |
| Vectors.UnitVectorLength | include/vec3.h:116 | dividing by a root of the squared length gives squared length 1 |
| Vectors.UnitVectorKeepsOrthogonal | include/vec3.h:116 | normalising keeps a vector orthogonal to whatever it was orthogonal to |
| Vectors.NormalisedComponentsBounded | include/vec3.h:116 | every component of a vector that `unitVector` returns (unit length, or the zero vector's stand-in) lies in [-1, 1] |
| Vectors.NearZero | include/vec3.h:54-57 | `nearZero` bounds the squared length below by 1e-16 when false and above by 3e-16 when true |
| Vectors.Reflect | include/vec3.h:141-143 | about a unit normal, reflection negates the normal component and keeps the length |
| Vectors.ReflectInvolution | include/vec3.h:141-143 | reflecting twice about a unit normal gives the vector back |
| Vectors.Refract | include/vec3.h:146-151 | with a valid sqrt, a unit normal and `dot(-uv, n) <= 1`, the refracted direction has a non-positive dot with the normal, so it continues through the surface |
| Vectors.RefractSnell | include/vec3.h:145-151 | Snell's law for a unit direction and a unit normal: the result's component tangent to the surface is the incoming tangent scaled by `etaiOverEtat`, and when that scaled tangent is at most unit length (no total internal reflection) the result is a unit vector |
| Vectors.TangentLength | include/vec3.h:148-149 | removing the normal component of a unit vector leaves squared length 1 - cos^2 |
| Vectors.RefractMatchedIndex | include/vec3.h:146-151 | with relative index 1, a unit direction arriving against a unit normal passes straight through |
| Vectors.CosineBounded | include/vec3.h:147 | the dot product of two unit vectors lies in [-1, 1] |
| Vectors.AcceptUnitSample | include/vec3.h:119-127 | a candidate is accepted, unchanged, exactly when its squared length lies in (1e-8, 1] |
| Vectors.UnitSampleProperties | include/vec3.h:123 | an accepted unit sample lies in [-1,1]^3 and is not `nearZero` |
| Vectors.RandomOnHemisphere | include/vec3.h:130-138 | the result is the sample or its negation, has a non-negative dot with the normal, and keeps the sample's length |
| Vectors.AcceptDiskSample | include/vec3.h:154-161 | a candidate (dx, dy, 0) is accepted exactly when its squared length is below 1 |
| Vectors.DiskSampleInSquare | include/vec3.h:156-157 | an accepted disk sample lies strictly inside (-1,1)^2 |
| Elementary.Pow5 | include/material.h:168 | the fifth power maps [0,1] into [0,1] |
| Elementary.Truncate | include/camera.h:95 | `static_cast<int>` truncates toward zero: the result is within 1 of x, on the side of zero |
| Elementary.TruncateMonotone | include/color.h:13-15 | truncation toward zero is monotone |
| Hittables.MakeSphere | include/sphere.h:21-22 | the radius is never negative: non-negative radii are kept and negative ones become 0 |
| Hittables.Coefficients | include/sphere.h:36-41 | `a >= 0`, `a = 0` exactly for a zero direction, and then `h = 0` |
| Hittables.OnSphereIffRoot | include/sphere.h:36-44 | t is a root of `a t^2 - 2 h t + c` exactly when the squared distance from `at(t)` to the centre is radius^2 |
| Hittables.NoRealRoot | include/sphere.h:44-45 | a negative discriminant means no parameter meets the sphere |
| Hittables.QuadraticRoots | include/sphere.h:48-54 | the roots are exactly `(h - sqrtd) / a` and `(h + sqrtd) / a` |
| Hittables.RootsOrdered | include/sphere.h:51-54 | the near root is at most the far root |
| Hittables.FirstSurrounded | include/sphere.h:51-56 | a root is reported only if `rayT` surrounds it |
| Hittables.SelectRoot | include/sphere.h:44-56 | root selection as written: any root reported is surrounded by `rayT` |
| Hittables.SelectRootIsClosest | include/sphere.h:44-56 | the chosen root lies on the sphere and is the least surrounded parameter on it; there is none exactly when no surrounded parameter is on the sphere |
| Hittables.SphereHit | include/sphere.h:33-68 | a hit is surrounded by `rayT`, has p = at(t), the sphere's material and a point on the sphere |
| Hittables.SphereMissIffNoRoot | include/sphere.h:45-55 | a sphere of non-zero radius is missed exactly when root selection finds no root in the window |
| Hittables.OutwardNormalIsUnit | include/sphere.h:63 | `(p - center) / radius` has unit length for a point on a sphere of non-zero radius |
| Hittables.ZeroRadiusSphereIsHit | include/sphere.h:44-63 | as written, a zero-radius sphere is hit by a ray through its centre, where `p - center` is the zero vector |
| Hittables.ZeroRadiusSphereIsMissed | include/sphere.h:63 | the corrected sphere hit never reports a zero-radius sphere |
| Hittables.Hit | include/hittableList.h:37-53 | a hit is surrounded by `rayT`, has p = at(t) and carries a material of the object |
| Hittables.Scan | include/hittableList.h:44-50 | the scan's result lies in `rayT`, at or below `closestSoFar`; it is None exactly when nothing was found before and every remaining member misses |
| Hittables.HitIsClosest | include/hittableList.h:37-53 | closest-hit law: a miss exactly when no surface point is surrounded by `rayT`, and otherwise a surface point with the least such parameter |
| Hittables.ScanIsClosest | include/hittableList.h:44-50 | the scan keeps the best hit so far unless a remaining object is met strictly closer, and then returns the closest such point |
| Hittables.ListMissIffMembersMiss | include/hittableList.h:41-53 | a list misses exactly when every member misses on the whole of `rayT`; in particular an empty list always misses |
| Hittables.SingleHit | include/hittableList.h:20 | a one-object list hits exactly as its object does |
| Hittables.Clear | include/hittableList.h:23 | after `clear` the list is empty and hits nothing |
| Hittables.AddObject | include/hittableList.h:26 | `add` appends the object at the end and keeps the earlier entries |
| Hittables.AddHit | include/hittableList.h:26 | after `add`, the list reports the new object's hit if it is strictly closer than the old closest hit, and the old hit otherwise |
| Hittables.ScanAppend | include/hittableList.h:44-50 | scanning `objects + [obj]` is scanning `objects`, then `obj` on the window narrowed to the best hit so far |
| Materials.Scatter | include/camera.h:201 | the scattered ray starts at the hit point; only a metal can absorb; albedos in [0,1] give an attenuation in [0,1]^3 |
| Materials.LambertianScatter | include/material.h:42-60 | always scatters, with attenuation = albedo, from `rec.p`, along normal + sample, or along the normal when that sum is `nearZero`; the direction is not `nearZero` unless the normal is |
| Materials.MetalScatter | include/material.h:84-98 | scatters exactly when the direction has a positive dot with the normal; attenuation = albedo and origin = `rec.p`; with fuzz 0 the direction is the reflection, and it scatters for a ray arriving against a unit normal |
| Materials.RelativeIndex | include/material.h:128 | `ri` is positive; on a front face `ri * index = 1`, on a back face `ri = index` |
| Materials.CosTheta | include/material.h:134 | cosTheta is at most 1, and it is `-dot(unitDir, normal)` when that is at most 1 |
| Materials.DielectricScatter | include/material.h:122-155 | always scatters, with attenuation (1,1,1), from `rec.p` |
| Materials.DielectricScatterDirection | include/material.h:138-151 | reflects under total internal reflection; when refraction is possible, reflects if the reflectance exceeds the draw and refracts otherwise |
| Materials.TotalInternalReflectionIgnoresDraw | include/material.h:138-144 | under total internal reflection the result does not depend on the random draw |
| Materials.NoTotalInternalReflectionEntering | include/material.h:128-138 | entering a medium with index >= 1 on a front face never triggers total internal reflection |
| Materials.R0 | include/material.h:166-167 | for refIdx > 0, `r0` lies in [0, 1), and it is 0 for refIdx = 1 |
| Materials.Reflectance | include/material.h:164-169 | Schlick's value is `r0` at cosine 1, and lies in [r0, 1] for refIdx > 0 and cosine in [0, 1] |
| Colors.ChannelByte | include/color.h:14-15 | a channel in [0,1] gives a byte in [0,255]; a negative channel gives at most 0; the byte is the truncation of 255.999 x |
| Colors.ChannelByteMonotone | include/color.h:13-15 | the byte conversion is monotone |
| Colors.ChannelByteEnds | include/color.h:13-15 | 0 maps to 0 and 1 maps to 255 |
| Colors.ChannelByteRoundTrip | include/color.h:13-15 | every byte k is produced, by the channel k / 255 |
| Colors.WriteColor | include/color.h:9-18 | red is clamped to [0, 256] (0 below, 256 above, the truncation inside); green and blue are the unclamped truncations; a colour in [0,1]^3 gives three bytes in [0, 255] |
| Cameras.ImageHeight | include/camera.h:95 | the height is at least 1, is the truncated width / aspect when that is at least 1, and is 1 below 2 |
| Cameras.DefaultImageHeight | include/camera.h:16-17 | the default 2560-wide 16:9 image is 1440 pixels high |
| Cameras.Initialize | include/camera.h:83-133 | the camera satisfies `Initialized`: height as above, `pixelSamplesScale * samplesPerPixel = 1`, origin = lookFrom, `u`, `v` and `w` mutually orthogonal, the defocus disk orthogonal to `w`, `w` a unit vector when lookFrom != lookAt, `u` and `v` unit vectors as well when moreover `vup` is not parallel to `w` (an orthonormal basis, camera.h:83), and the middle of the pixel grid the point focusDist in front of the camera along -w |
| Cameras.SampleScale | include/camera.h:98 | the per-sample weight times the sample count is 1 |
| Cameras.CameraFrame | include/camera.h:111-113 | `u`, `v` and `w` are mutually orthogonal, `w` is a unit vector when lookFrom != lookAt, and when moreover `cross(vup, w)` is non-zero `u` and `v` are unit vectors too, so the basis is orthonormal |
| Cameras.ViewDirection | include/camera.h:111 | `w` is a unit vector when lookFrom != lookAt, and scales back to lookFrom - lookAt |
| Cameras.GridCentredOnAxis | include/camera.h:116-126 | for any viewport height and basis, the middle of the pixel grid is the point focusDist in front of lookFrom along -w |
| Cameras.PixelSample | include/camera.h:149-150 | the jittered sample is the pixel centre moved by the offsets along the pixel deltas |
| Cameras.DefocusDiskSample | include/camera.h:175-178 | the disk point (0, 0) gives the camera origin, and when the defocus disk is orthogonal to `w` every lens sample lies in the plane through the origin orthogonal to `w`; `LensSampleInLensPlane` restates the second fact for callers holding a camera |
| Cameras.LensSampleInLensPlane | include/camera.h:175-178 | when the defocus disk is orthogonal to `w`, as `Initialize` guarantees, lens samples lie in the plane through the origin orthogonal to `w` |
| Cameras.SampleSquare | include/camera.h:165-167 | the jitter lies in the image plane with the two draws as its x and y; what the [-0.5, 0.5] range means for the sample is carried by `SampleInPixelCell` and `CellPointIsSample` |
| Cameras.SampleInPixelCell | include/camera.h:145-150 | a jitter drawn from [-0.5, 0.5] x [-0.5, 0.5], as `sampleSquare` promises, puts the pixel sample of pixel (i, j) inside that pixel's cell: pixel00Loc + a * pixelDeltaU + b * pixelDeltaV with a within 0.5 of i and b within 0.5 of j |
| Cameras.CellPointIsSample | include/camera.h:145-150 | conversely, every point of pixel (i, j)'s cell is the pixel sample of some jitter in [-0.5, 0.5] x [-0.5, 0.5] |
| Cameras.GetRay | include/camera.h:144-157 | with defocusAngle <= 0 the ray starts at the camera origin, otherwise at the lens sample; in all cases `at(1)` is the jittered pixel sample |
| Cameras.Background | include/camera.h:211-215 | y = 1 gives (0.5,0.7,1.0), y = -1 gives white, and y in [-1,1] gives a colour in [0,1]^3 |
| Cameras.RayColor | include/camera.h:190-216 | a ray with no bounces left is black; the recursion ends because depth decreases |
| Cameras.LastBounceHitIsBlack | include/camera.h:192-207 | with one bounce left, a ray that hits anything is black |
| Cameras.EmptyWorldShowsBackground | include/camera.h:196-215 | in an empty world every ray with bounces left shows the background |
| Cameras.SkyInUnitCube | include/camera.h:211-215 | the background of any direction lies in [0,1]^3 |
| Cameras.RayColorInUnitCube | include/camera.h:190-216 | with albedos in [0,1], every ray colour lies in [0,1]^3 |
| Cameras.SampleColorsInUnitCube | include/camera.h:59-62 | with albedos in [0,1], every sample colour of a pixel lies in [0,1]^3 |
| Cameras.SumBounded | include/camera.h:59-62 | a sum of n colours from [0,1]^3 has every channel in [0, n] |
| Cameras.AverageInUnitCube | include/camera.h:65 | a sample sum with channels in [0, spp], scaled by 1 / spp, lies in [0,1]^3 |
| Cameras.PixelBytesInRange | include/camera.h:65 | with albedos in [0,1] and scale = 1 / spp, every pixel colour lies in [0,1]^3 and its three bytes lie in [0, 255] |
| Cameras.RowMajor | include/camera.h:49-54 | pixel (i, j) sits at index j * width + i, and division and remainder by the width recover j and i |
| Cameras.Accumulate | include/camera.h:56-62 | the accumulation loop yields the sum of the sample colours in sample order |
| Cameras.SamplePixel | include/camera.h:56-62 | the sample loop of a pixel yields the sum of its `samplesPerPixel` sample colours |
| Cameras.RenderCamera | include/camera.h:49-66 | the pixel loops emit height * width byte triples in row-major order: triple k is the `writeColor` of the scaled sample sum of pixel (k % width, k / width) |
| Cameras.Render | include/camera.h:41-71 | `render` runs `initialize` and then the pixel loops: the returned camera satisfies `Initialized`, so it has the configuration, image height and sample weight `initialize` gives, its origin is `lookFrom`, its basis u, v, w is mutually orthogonal with w a unit vector when lookFrom != lookAt and u, v unit vectors when moreover vup is not parallel to w, its defocus disk is orthogonal to w, and its pixel grid is centred focusDist along -w; the image is that camera's height * width row-major image |

## Left out

- IEEE double semantics. Rounding, NaN, overflow and signed zeros are not modelled. The model does not claim the renderer is free of floating-point error. The NaN cases that decide a branch are modelled explicitly:
  - a zero ray direction makes both sphere roots 0/0, so the sphere is missed;
  - a negative `1 - cos^2` makes `sinTheta` NaN, so `cannotRefract` is false.
- Vectors.UnitVector: the zero vector normalises to the zero vector in the model. The source produces NaN components, which `real` cannot represent.
- `sqrt`, `tan`, PI and `degreesToRadians`. These are caller-supplied values, and only the `IsSqrt` property of `sqrt` is assumed. The viewport size and defocus radius therefore stay uninterpreted, and no trigonometric fact is used.
- `setFaceNormal`. Its body is not part of this model: include/hittable.h is an older snapshot whose hit record does not match how the other headers use it. It is a caller-supplied function, so the unit-normal and front-face orientation invariants are not stated.
- `randomDouble` and the rejection loops of `randomUnitVec3` and `randomInUnitDisk`. Each accepted value is a parameter, and only one pass of the acceptance test is modelled (`AcceptUnitSample`, `AcceptDiskSample`). Termination and the distribution of draws are not modelled, and the ranges of the draws are not assumed.
- Stream I/O. This covers the PPM header, progress messages, `operator<<` and the text written by `writeColor`. `render` returns the sequence of byte triples instead.
- src/main.cpp (scene construction) is not part of this model.
- Integer overflow of `static_cast<int>`. Dafny's `int` is unbounded.
- Materials.Scatter: requires a dielectric index > 0. The source divides by zero only for an index of 0 (`1 / index`) or -1 (`1 + ri`), and computes finite values for the other negative indices. The model admits only positive, physical indices, which the relative-index and Schlick lemmas rely on, and says nothing about negative ones.
- Cameras.Initialize: requires a non-zero aspect ratio, image width and sample count. These are the divisors of `initialize`.
- Materials.Scatter: a material's attenuation is in [0,1]^3 only when its albedo is. The source does not check albedos, so the energy bounds (`RayColorInUnitCube`, `PixelBytesInRange`) are stated for such worlds (`ConservingWorld`).
- Cameras.Render: the contract lists what `Initialize` proves about the camera (configuration, height, sample weight, origin, orthonormal basis, defocus disk orthogonal to w, grid centred on the axis) rather than equality with `Initialize(c, env)`, although the body computes the camera with `Initialize`. The pixel steps and the defocus disk axes themselves, their directions along `u` and `-v` and their lengths, which depend on the field of view through the caller-supplied `tan`, are therefore not stated. Stating the equality would put the whole `initialize` computation, with its two square-root normalisations, into every use of the contract.
- Cameras.PixelBytesInRange: stated for any camera with `pixelSamplesScale * samplesPerPixel = 1` rather than through `Initialize`. `Initialize` guarantees this, and keeping the camera's construction out of the statement keeps the proof small.
- Colors.WriteColor models the conversion as the code performs it: there is no gamma correction, and only the red byte is clamped, to [0, 256] (include/color.h:13-15).
- Cameras.ImageHeight models the height as the code computes it: `initialize` truncates `imageWidth / aspectRatio` toward zero (include/camera.h:95).
- Hittables.SphereHit: `Hit`, and through it `Scan`, `RayColor` and `Render`, use the corrected sphere hit, which refuses a sphere of radius 0. `sphere::hit` has no radius test (include/sphere.h:33-67), so on the input in "## Findings" the program reports a hit whose normal is 0/0, a value the model cannot represent. The as-written root selection is kept in `SelectRoot` and `ZeroRadiusSphereIsHit`. `OnSurface` excludes radius 0 to match, so `HitIsClosest` and `ScanIsClosest` describe the corrected geometry.

## Findings

| source | as written | input that shows it | evidently intended | confidence | as-written member | corrected member |
|---|---|---|---|---|---|---|
| include/sphere.h:22 | the constructor clamps a negative radius to 0, and `hit` still reports a zero-radius sphere whenever the ray passes through its centre; the outward normal `(p - center) / radius` is then 0/0 | sphere at (0,0,-1) with radius -0.5; ray from (0,0,0) along (0,0,-1) queried on (0.001, INF): the discriminant is 0, the root t = 1 is surrounded, and p = center | a sphere of radius 0 has no surface and is never hit | medium, not executed | Hittables.ZeroRadiusSphereIsHit | Hittables.ZeroRadiusSphereIsMissed |

=== FILE: cameras.dfy ===
/** camera.h: the derived camera geometry, ray generation, the recursive
    `rayColor` and the pixel and sample loops of `render`. The random values
    each sample draws are passed in as `SampleDraws`. */
module Cameras {
  import opened Elementary
  import opened Vectors
  import opened Intervals
  import opened Rays
  import opened Surfaces
  import opened Externals
  import opened Materials
  import opened Hittables
  import opened Colors

  /** The public settings of a `camera`. */
  datatype CameraConfig = CameraConfig(
    aspectRatio: real, imageWidth: int, samplesPerPixel: int, maxDepth: int,
    vfov: real, lookFrom: Point3, lookAt: Point3, vup: Vec3,
    defocusAngle: real, focusDist: real)

  /** The member initialisers of `camera`. */
  const DefaultConfig: CameraConfig :=
    CameraConfig(16.0 / 9.0, 2560, 10, 10, 90.0, Vec3(0.0, 0.0, 0.0), Vec3(0.0, 0.0, -1.0),
                 Vec3(0.0, 1.0, 0.0), 0.0, 10.0)

  /** `initialize` divides by the aspect ratio, the image width and the
      sample count. */
  predicate Configurable(c: CameraConfig) {
    c.aspectRatio != 0.0 && c.imageWidth != 0 && c.samplesPerPixel != 0
  }

  /** The settings together with the private fields `initialize` derives. */
  datatype Camera = Camera(
    config: CameraConfig, imageHeight: int, pixelSamplesScale: real, origin: Point3,
    pixel00Loc: Point3, pixelDeltaU: Vec3, pixelDeltaV: Vec3,
    u: Vec3, v: Vec3, w: Vec3, defocusDiskU: Vec3, defocusDiskV: Vec3)

  /** `max(static_cast<int>(imageWidth / aspectRatio), 1)`: the ideal height
      truncated toward zero, and at least 1. */
  function ImageHeight(imageWidth: int, aspectRatio: real): (h: int)
    requires aspectRatio != 0.0
    ensures 1 <= h
    ensures 1.0 <= imageWidth as real / aspectRatio ==>
              h as real <= imageWidth as real / aspectRatio < h as real + 1.0
    ensures imageWidth as real / aspectRatio < 2.0 ==> h == 1
  {
    var truncated := Truncate(imageWidth as real / aspectRatio);
    if truncated < 1 then 1 else truncated
  }

  /** The default 2560-pixel-wide 16:9 image is 1440 pixels high. */
  lemma DefaultImageHeight()
    ensures ImageHeight(DefaultConfig.imageWidth, DefaultConfig.aspectRatio) == 1440
  {
    assert DefaultConfig.imageWidth as real / DefaultConfig.aspectRatio == 1440.0;
  }

  /** What `initialize` establishes about a camera: the configuration and
      the derived height and sample weight; the origin at `lookFrom`; an
      orthogonal basis `u, v, w` that is orthonormal when `lookFrom != lookAt`
      and `vup` is not parallel to `w`; a defocus disk orthogonal to `w`; and
      a pixel grid whose middle is `focusDist` in front of the camera along
      `-w`. */
  ghost predicate Initialized(cam: Camera, c: CameraConfig, env: Env)
    requires Configurable(c)
  {
    && cam.config == c && cam.origin == c.lookFrom
    && cam.imageHeight == ImageHeight(c.imageWidth, c.aspectRatio) && 1 <= cam.imageHeight
    && cam.pixelSamplesScale * c.samplesPerPixel as real == 1.0
    && Dot(cam.u, cam.w) == 0.0 && Dot(cam.v, cam.w) == 0.0 && Dot(cam.v, cam.u) == 0.0
    && Dot(cam.defocusDiskU, cam.w) == 0.0 && Dot(cam.defocusDiskV, cam.w) == 0.0
    && (Valid(env) && c.lookFrom != c.lookAt ==> LengthSquared(cam.w) == 1.0)
    && (Valid(env) && c.lookFrom != c.lookAt && Cross(c.vup, cam.w) != Zero ==>
          LengthSquared(cam.u) == 1.0 && LengthSquared(cam.v) == 1.0)
    && Add(Add(cam.pixel00Loc, Scale(c.imageWidth as real / 2.0 - 0.5, cam.pixelDeltaU)),
           Scale(cam.imageHeight as real / 2.0 - 0.5, cam.pixelDeltaV))
       == Sub(cam.origin, Scale(c.focusDist, cam.w))
  }

  /** `initialize`: image height and sample scale, the camera basis `u, v, w`,
      the viewport's pixel grid and the defocus disk. */
  function Initialize(c: CameraConfig, env: Env): (cam: Camera)
    requires Configurable(c)
    ensures Initialized(cam, c, env)
  {
    var frame := CameraFrame(c.lookFrom, c.lookAt, c.vup, env.sqrt);
    var h := env.tan(DegreesToRadians(c.vfov, env.pi) / 2.0);
    var defocusRadius := c.focusDist * env.tan(DegreesToRadians(c.defocusAngle / 2.0, env.pi));
    AssembledCameraInitialized(c, env, frame, h, defocusRadius);
    Assemble(c, frame, h, defocusRadius)
  }

  /** The camera `initialize` assembles from its basis: the image height and
      sample scale, the pixel grid for the tangent `h` of half the vertical
      field of view, and the defocus disk of the given radius. */
  function Assemble(c: CameraConfig, frame: Frame, h: real, defocusRadius: real): Camera
    requires Configurable(c)
  {
    var imageHeight := ImageHeight(c.imageWidth, c.aspectRatio);
    var grid := PixelGrid(c, imageHeight, h, frame);
    Camera(c, imageHeight, SampleScale(c.samplesPerPixel), c.lookFrom, grid.pixel00Loc, grid.pixelDeltaU, grid.pixelDeltaV,
           frame.u, frame.v, frame.w, Scale(defocusRadius, frame.u), Scale(defocusRadius, frame.v))
  }

  /** A camera assembled from a basis with `CameraFrame`'s guarantees
      satisfies `Initialized`, whatever the tangent and the defocus radius. */
  lemma AssembledCameraInitialized(c: CameraConfig, env: Env, frame: Frame, h: real, radius: real)
    requires Configurable(c)
    requires Dot(frame.u, frame.w) == 0.0 && Dot(frame.v, frame.w) == 0.0 && Dot(frame.v, frame.u) == 0.0
    requires Valid(env) && c.lookFrom != c.lookAt ==> LengthSquared(frame.w) == 1.0
    requires Valid(env) && c.lookFrom != c.lookAt && Cross(c.vup, frame.w) != Zero ==>
               LengthSquared(frame.u) == 1.0 && LengthSquared(frame.v) == 1.0
    ensures Initialized(Assemble(c, frame, h, radius), c, env)
  {
    var imageHeight := ImageHeight(c.imageWidth, c.aspectRatio);
    var grid := PixelGrid(c, imageHeight, h, frame);
    var cam := Assemble(c, frame, h, radius);
    assert cam.imageHeight == imageHeight && cam.pixelSamplesScale == SampleScale(c.samplesPerPixel);
    assert cam.pixel00Loc == grid.pixel00Loc && cam.pixelDeltaU == grid.pixelDeltaU && cam.pixelDeltaV == grid.pixelDeltaV;
    GridCentredOnAxis(c, imageHeight, h, frame);
    ScaleKeepsOrthogonal(radius, frame.u, frame.w);
    ScaleKeepsOrthogonal(radius, frame.v, frame.w);
  }

  /** `1.0 / samplesPerPixel`: the weight of one sample in a pixel's average. */
  function SampleScale(samplesPerPixel: int): (scale: real)
    requires samplesPerPixel != 0
    ensures scale * samplesPerPixel as real == 1.0
  {
    1.0 / samplesPerPixel as real
  }

  /** The viewport's pixel grid: the centre of the upper-left pixel and the
      steps to the next pixel across and down. */
  datatype Grid = Grid(pixel00Loc: Point3, pixelDeltaU: Vec3, pixelDeltaV: Vec3)

  /** The viewport is `2 h focusDist` high, as wide as the image's aspect
      ratio demands, and spans `u` across and `-v` down; `h` is the tangent of
      half the vertical field of view. */
  function PixelGrid(c: CameraConfig, imageHeight: int, h: real, frame: Frame): Grid
    requires c.imageWidth != 0 && imageHeight != 0
  {
    var viewportHeight := 2.0 * h * c.focusDist;
    var viewportWidth := viewportHeight * (c.imageWidth as real / imageHeight as real);
    var viewportU := Scale(viewportWidth, frame.u);
    var viewportV := Scale(viewportHeight, Neg(frame.v));
    var pixelDeltaU := Div(viewportU, c.imageWidth as real);
    var pixelDeltaV := Div(viewportV, imageHeight as real);
    var viewportUpperLeft :=
      Sub(Sub(Sub(c.lookFrom, Scale(c.focusDist, frame.w)), Div(viewportU, 2.0)), Div(viewportV, 2.0));
    Grid(Add(Add(viewportUpperLeft, Scale(0.5, pixelDeltaU)), Scale(0.5, pixelDeltaV)),
         pixelDeltaU, pixelDeltaV)
  }

  /** The camera's orthogonal basis `u, v, w`. */
  datatype Frame = Frame(u: Vec3, v: Vec3, w: Vec3)

  /** `w` points from `lookAt` back to the camera, `u = unit(vup x w)` and
      `v = w x u`. */
  function CameraFrame(lookFrom: Point3, lookAt: Point3, vup: Vec3, sqrt: real -> real): (f: Frame)
    ensures Dot(f.u, f.w) == 0.0 && Dot(f.v, f.w) == 0.0 && Dot(f.v, f.u) == 0.0
    ensures IsSqrt(sqrt) && lookFrom != lookAt ==> LengthSquared(f.w) == 1.0
    ensures IsSqrt(sqrt) && lookFrom != lookAt && Cross(vup, f.w) != Zero ==>
              LengthSquared(f.u) == 1.0 && LengthSquared(f.v) == 1.0
  {
    var w := ViewDirection(lookFrom, lookAt, sqrt);
    var crossed := Cross(vup, w);
    var u := UnitVector(crossed, sqrt);
    UnitVectorKeepsOrthogonal(crossed, w, sqrt);
    OrthonormalCross(w, u);
    Frame(u, Cross(w, u), w)
  }

  /** `w`, the unit vector from the point looked at back to the camera. */
  function ViewDirection(lookFrom: Point3, lookAt: Point3, sqrt: real -> real): (w: Vec3)
    ensures IsSqrt(sqrt) ==> Scale(Length(Sub(lookFrom, lookAt), sqrt), w) == Sub(lookFrom, lookAt)
    ensures IsSqrt(sqrt) && lookFrom != lookAt ==> LengthSquared(w) == 1.0
  {
    var d := Sub(lookFrom, lookAt);
    assert lookFrom != lookAt ==> d != Zero by {
      if d == Zero { assert lookFrom == lookAt; }
    }
    UnitVector(d, sqrt)
  }

  /** The pixel grid of any viewport height and basis is centred on the
      point `focusDist` in front of `lookFrom` along `-w`. */
  lemma GridCentredOnAxis(c: CameraConfig, imageHeight: int, h: real, frame: Frame)
    requires c.imageWidth != 0 && imageHeight != 0
    ensures var grid := PixelGrid(c, imageHeight, h, frame);
            Add(Add(grid.pixel00Loc, Scale(c.imageWidth as real / 2.0 - 0.5, grid.pixelDeltaU)),
                Scale(imageHeight as real / 2.0 - 0.5, grid.pixelDeltaV))
            == Sub(c.lookFrom, Scale(c.focusDist, frame.w))
  {
    var grid := PixelGrid(c, imageHeight, h, frame);
    var width := c.imageWidth as real;
    var height := imageHeight as real;
    var du, dv := grid.pixelDeltaU, grid.pixelDeltaV;
    var viewportU := Scale(width, du);
    var viewportV := Scale(height, dv);
    var upperLeft := Sub(Sub(Sub(c.lookFrom, Scale(c.focusDist, frame.w)), Div(viewportU, 2.0)), Div(viewportV, 2.0));
    assert grid.pixel00Loc == Add(Add(upperLeft, Scale(0.5, du)), Scale(0.5, dv));
    HalfGridStep(width, du);
    HalfGridStep(height, dv);
  }

  /** Half a grid of `n` steps, less half a step, from half a step in. */
  lemma HalfGridStep(n: real, d: Vec3)
    ensures Add(Scale(0.5, d), Scale(n / 2.0 - 0.5, d)) == Div(Scale(n, d), 2.0)
  {
  }

  /** The draws of one camera sample: the two `randomDouble(-0.5, 0.5)`
      offsets of `sampleSquare`, the point `randomInUnitDisk` accepted, and
      the scatter draws of each bounce, indexed by the remaining depth. */
  datatype SampleDraws = SampleDraws(offsetX: real, offsetY: real, disk: Vec3, bounce: nat -> ScatterDraw)

  /** `sampleSquare`: a jitter in the image plane. */
  function SampleSquare(offsetX: real, offsetY: real): (offset: Vec3)
    ensures offset.z == 0.0 && offset.x == offsetX && offset.y == offsetY
  {
    Vec3(offsetX, offsetY, 0.0)
  }

  /** The point `a` steps across and `b` steps down the pixel grid from the
      centre of the upper-left pixel. */
  function GridPoint(cam: Camera, a: real, b: real): Point3 {
    Add(Add(cam.pixel00Loc, Scale(a, cam.pixelDeltaU)), Scale(b, cam.pixelDeltaV))
  }

  /** `p` lies in the cell of pixel `(i, j)`: at most half a step from its
      centre in each grid direction. */
  ghost predicate InPixelCell(cam: Camera, i: int, j: int, p: Point3) {
    exists a: real, b: real ::
      i as real - 0.5 <= a <= i as real + 0.5 && j as real - 0.5 <= b <= j as real + 0.5
      && p == GridPoint(cam, a, b)
  }

  /** The jitter `sampleSquare` draws from [-0.5, 0.5] x [-0.5, 0.5] keeps the
      pixel sample inside the pixel's cell. */
  lemma SampleInPixelCell(cam: Camera, i: int, j: int, offsetX: real, offsetY: real)
    requires -0.5 <= offsetX <= 0.5 && -0.5 <= offsetY <= 0.5
    ensures InPixelCell(cam, i, j, PixelSample(cam, i, j, SampleSquare(offsetX, offsetY)))
  {
    assert PixelSample(cam, i, j, SampleSquare(offsetX, offsetY))
           == GridPoint(cam, i as real + offsetX, j as real + offsetY);
  }

  /** Conversely every point of the cell of pixel `(i, j)` is the pixel
      sample of a jitter in [-0.5, 0.5] x [-0.5, 0.5]. */
  lemma CellPointIsSample(cam: Camera, i: int, j: int, a: real, b: real)
    requires i as real - 0.5 <= a <= i as real + 0.5 && j as real - 0.5 <= b <= j as real + 0.5
    ensures -0.5 <= a - i as real <= 0.5 && -0.5 <= b - j as real <= 0.5
    ensures PixelSample(cam, i, j, SampleSquare(a - i as real, b - j as real)) == GridPoint(cam, a, b)
  {
  }

  /** The centre of pixel `(i, j)`. */
  function PixelCentre(cam: Camera, i: int, j: int): Point3 {
    Add(Add(cam.pixel00Loc, Scale(i as real, cam.pixelDeltaU)), Scale(j as real, cam.pixelDeltaV))
  }

  /** `pixel00Loc + (i + offset.x) * pixelDeltaU + (j + offset.y) * pixelDeltaV`. */
  function PixelSample(cam: Camera, i: int, j: int, offset: Vec3): (p: Point3)
    ensures p == Add(Add(PixelCentre(cam, i, j), Scale(offset.x, cam.pixelDeltaU)),
                             Scale(offset.y, cam.pixelDeltaV))
  {
    Add(Add(cam.pixel00Loc, Scale(i as real + offset.x, cam.pixelDeltaU)),
                Scale(j as real + offset.y, cam.pixelDeltaV))
  }

  /** `defocusDiskSample`: the camera origin moved by the disk point along the
      defocus disk's axes. The centre of the disk is the camera origin, and a
      disk orthogonal to `w` keeps every sample in the lens plane. */
  function DefocusDiskSample(cam: Camera, p: Vec3): (s: Point3)
    ensures p.x == 0.0 && p.y == 0.0 ==> s == cam.origin
    ensures Dot(cam.defocusDiskU, cam.w) == 0.0 && Dot(cam.defocusDiskV, cam.w) == 0.0 ==>
              Dot(Sub(s, cam.origin), cam.w) == 0.0
  {
    var a := Scale(p.x, cam.defocusDiskU);
    var b := Scale(p.y, cam.defocusDiskV);
    var s := Add(Add(cam.origin, a), b);
    assert Sub(s, cam.origin) == Add(a, b);
    DotAdd(a, b, cam.w);
    DotScale(p.x, cam.defocusDiskU, cam.w);
    DotScale(p.y, cam.defocusDiskV, cam.w);
    s
  }

  /** When the defocus disk is orthogonal to the viewing direction `w`, as
      `Initialize` makes it, the lens samples lie in the plane through the
      origin orthogonal to `w`. */
  lemma LensSampleInLensPlane(cam: Camera, p: Vec3)
    requires Dot(cam.defocusDiskU, cam.w) == 0.0 && Dot(cam.defocusDiskV, cam.w) == 0.0
    ensures Dot(Sub(DefocusDiskSample(cam, p), cam.origin), cam.w) == 0.0
  {
  }

  /** `getRay(i, j)`: a ray from the camera origin, or from a lens sample
      when defocus blur is on, that reaches the jittered pixel sample at
      parameter 1. */
  function GetRay(cam: Camera, i: int, j: int, draws: SampleDraws): (r: Ray)
    ensures cam.config.defocusAngle <= 0.0 ==> r.origin == cam.origin
    ensures 0.0 < cam.config.defocusAngle ==> r.origin == DefocusDiskSample(cam, draws.disk)
    ensures At(r, 1.0) == PixelSample(cam, i, j, SampleSquare(draws.offsetX, draws.offsetY))
  {
    var offset := SampleSquare(draws.offsetX, draws.offsetY);
    var pixelSample := PixelSample(cam, i, j, offset);
    var rayOrigin := if cam.config.defocusAngle <= 0.0 then cam.origin else DefocusDiskSample(cam, draws.disk);
    Ray(rayOrigin, Sub(pixelSample, rayOrigin))
  }

  const SkyBlue: Color := Vec3(0.5, 0.7, 1.0)

  /** The interval `rayColor` queries: hits closer than 0.001 are ignored. */
  const QueryWindow: Interval := Interval(Finite(0.001), PosInf)

  /** The background of a ray that hits nothing: white blended into sky blue
      by the height of the unit direction. */
  function Background(unitDirection: Vec3): (c: Color)
    ensures unitDirection.y == 1.0 ==> c == SkyBlue
    ensures unitDirection.y == -1.0 ==> c == White
    ensures -1.0 <= unitDirection.y <= 1.0 ==> InUnitCube(c)
  {
    var a := 0.5 * (unitDirection.y + 1.0);
    Add(Scale(1.0 - a, White), Scale(a, SkyBlue))
  }

  /** Every material in the world can be scattered from. */
  predicate WellFormedWorld(world: Hittable) {
    forall m :: m in MaterialsOf(world) ==> WellFormed(m)
  }

  /** `rayColor`: black once the bounce budget is spent; otherwise the
      attenuated colour of the scattered ray if the world is hit and the
      material scatters, black if it absorbs, and the background if nothing
      is hit. */
  function RayColor(r: Ray, depth: int, world: Hittable, env: Env, bounce: nat -> ScatterDraw): (c: Color)
    requires WellFormedWorld(world)
    decreases depth
    ensures depth <= 0 ==> c == Zero
  {
    if depth <= 0 then Zero
    else
      match Hit(world, r, QueryWindow, env)
      case Some(rec) =>
        var scatter := Scatter(rec.mat, r, rec, bounce(depth), env.sqrt);
        if scatter.scatters then Mul(scatter.attenuation, RayColor(scatter.scattered, depth - 1, world, env, bounce))
        else Zero
      case None => Background(UnitVector(r.direction, env.sqrt))
  }

  /** With one bounce left, a ray that hits anything is black: only rays
      that escape to the background carry light. */
  lemma LastBounceHitIsBlack(r: Ray, world: Hittable, env: Env, bounce: nat -> ScatterDraw)
    requires WellFormedWorld(world)
    requires Hit(world, r, QueryWindow, env).Some?
    ensures RayColor(r, 1, world, env, bounce) == Zero
  {
    var rec := Hit(world, r, QueryWindow, env).value;
    var scatter := Scatter(rec.mat, r, rec, bounce(1), env.sqrt);
    assert RayColor(scatter.scattered, 0, world, env, bounce) == Zero;
    assert Mul(scatter.attenuation, Zero) == Zero;
  }

  /** A cleared world shows the background to every ray with bounces left. */
  lemma EmptyWorldShowsBackground(r: Ray, depth: int, env: Env, bounce: nat -> ScatterDraw)
    requires 0 < depth
    ensures WellFormedWorld(ListObject([]))
    ensures RayColor(r, depth, ListObject([]), env, bounce) == Background(UnitVector(r.direction, env.sqrt))
  {
  }

  /** Materials that never brighten a channel keep every ray colour in the
      unit cube. */
  predicate ConservingWorld(world: Hittable) {
    forall m :: m in MaterialsOf(world) ==> WellFormed(m) && EnergyConserving(m)
  }

  /** Conserving materials are in particular well formed. */
  lemma ConservingWorldIsWellFormed(world: Hittable)
    requires ConservingWorld(world)
    ensures WellFormedWorld(world)
  {
  }

  lemma {:induction false} RayColorInUnitCube(r: Ray, depth: int, world: Hittable, env: Env, bounce: nat -> ScatterDraw)
    requires Valid(env) && ConservingWorld(world)
    decreases depth, 2
    ensures WellFormedWorld(world)
    ensures InUnitCube(RayColor(r, depth, world, env, bounce))
  {
    if 0 < depth {
      if Hit(world, r, QueryWindow, env).Some? {
        HitColorInUnitCube(r, depth, world, env, bounce);
      } else {
        SkyInUnitCube(r.direction, env);
        assert RayColor(r, depth, world, env, bounce) == Background(UnitVector(r.direction, env.sqrt));
      }
    }
  }

  /** The hit case of `RayColorInUnitCube`: the scattered ray's colour,
      filtered by an attenuation in the unit cube, stays in the unit cube. */
  lemma {:induction false} HitColorInUnitCube(r: Ray, depth: int, world: Hittable, env: Env, bounce: nat -> ScatterDraw)
    requires Valid(env) && ConservingWorld(world)
    requires 0 < depth && Hit(world, r, QueryWindow, env).Some?
    decreases depth, 1
    ensures WellFormedWorld(world)
    ensures InUnitCube(RayColor(r, depth, world, env, bounce))
  {
    var rec := Hit(world, r, QueryWindow, env).value;
    assert rec.mat in MaterialsOf(world);
    assert WellFormed(rec.mat);
    RayColorOfHit(r, depth, world, env, bounce, rec);
    if Scatter(rec.mat, r, rec, bounce(depth), env.sqrt).scatters {
      ScatteredColorInUnitCube(r, depth, world, env, bounce, rec);
    }
  }

  /** When a material of a conserving world scatters at `rec`, the
      attenuated colour of the scattered ray stays in the unit cube. */
  lemma {:induction false} ScatteredColorInUnitCube(r: Ray, depth: int, world: Hittable, env: Env,
                                                    bounce: nat -> ScatterDraw, rec: HitRecord)
    requires Valid(env) && ConservingWorld(world)
    requires 0 < depth && rec.mat in MaterialsOf(world)
    requires WellFormed(rec.mat) && Scatter(rec.mat, r, rec, bounce(depth), env.sqrt).scatters
    decreases depth, 0
    ensures WellFormedWorld(world)
    ensures var scatter := Scatter(rec.mat, r, rec, bounce(depth), env.sqrt);
            InUnitCube(Mul(scatter.attenuation, RayColor(scatter.scattered, depth - 1, world, env, bounce)))
  {
    var scatter := Scatter(rec.mat, r, rec, bounce(depth), env.sqrt);
    var next := RayColor(scatter.scattered, depth - 1, world, env, bounce);
    RayColorInUnitCube(scatter.scattered, depth - 1, world, env, bounce);
    assert EnergyConserving(rec.mat);
    AttenuatedInUnitCube(rec.mat, r, rec, bounce(depth), env.sqrt, next);
  }

  /** One unfolding of `RayColor` on a ray that hits: the attenuated colour
      of the scattered ray, or black when the material absorbs. */
  lemma RayColorOfHit(r: Ray, depth: int, world: Hittable, env: Env, bounce: nat -> ScatterDraw, rec: HitRecord)
    requires WellFormedWorld(world) && 0 < depth
    requires Hit(world, r, QueryWindow, env).Some? && Hit(world, r, QueryWindow, env).value == rec
    ensures var scatter := Scatter(rec.mat, r, rec, bounce(depth), env.sqrt);
            RayColor(r, depth, world, env, bounce)
            == if scatter.scatters then Mul(scatter.attenuation, RayColor(scatter.scattered, depth - 1, world, env, bounce))
               else Zero
  {
  }

  /** A conserving material's attenuation keeps a colour in the unit cube. */
  lemma AttenuatedInUnitCube(m: Material, rIn: Ray, rec: HitRecord, draw: ScatterDraw, sqrt: real -> real, c: Color)
    requires WellFormed(m) && EnergyConserving(m) && InUnitCube(c)
    ensures InUnitCube(Mul(Scatter(m, rIn, rec, draw, sqrt).attenuation, c))
  {
    MulUnitCube(Scatter(m, rIn, rec, draw, sqrt).attenuation, c);
  }

  lemma SkyInUnitCube(direction: Vec3, env: Env)
    requires Valid(env)
    ensures InUnitCube(Background(UnitVector(direction, env.sqrt)))
  {
    var u := UnitVector(direction, env.sqrt);
    assert direction != Zero ==> LengthSquared(u) == 1.0;
    NormalisedComponentsBounded(direction, u);
    BackgroundInUnitCube(u);
  }

  lemma BackgroundInUnitCube(unitDirection: Vec3)
    requires -1.0 <= unitDirection.y <= 1.0
    ensures InUnitCube(Background(unitDirection))
  {
  }

  /** The number of passes of a loop `for (int k = 0; k < n; k++)`: the
      sample loop over `samplesPerPixel`, the pixel loop over `imageWidth`. */
  function IterationCount(n: int): nat {
    if n < 0 then 0 else n
  }

  /** The sum `colors(0) + ... + colors(n - 1)`, accumulated from zero in
      the order the sample loop adds them. */
  function Sum(colors: nat -> Color, n: nat): Color {
    if n == 0 then Zero else Add(Sum(colors, n - 1), colors(n - 1))
  }

  /** The colour one camera sample of pixel `(i, j)` contributes:
      `rayColor(getRay(i, j), maxDepth, world)` under the sample's draws. */
  function SampleColor(cam: Camera, world: Hittable, env: Env, i: nat, j: nat, d: SampleDraws): Color
    requires WellFormedWorld(world)
  {
    RayColor(GetRay(cam, i, j, d), cam.config.maxDepth, world, env, d.bounce)
  }

  /** The colours of the successive samples of pixel `(i, j)`. */
  function SampleColors(cam: Camera, world: Hittable, env: Env, draws: (nat, nat, nat) -> SampleDraws,
                        i: nat, j: nat): nat -> Color
    requires WellFormedWorld(world)
  {
    (k: nat) => SampleColor(cam, world, env, i, j, draws(i, j, k))
  }

  /** The colour of pixel `(i, j)`: the sample sum scaled by
      `pixelSamplesScale`. */
  function PixelColor(cam: Camera, world: Hittable, env: Env, draws: (nat, nat, nat) -> SampleDraws,
                      i: nat, j: nat): Color
    requires WellFormedWorld(world)
  {
    Scale(cam.pixelSamplesScale, Sum(SampleColors(cam, world, env, draws, i, j), IterationCount(cam.config.samplesPerPixel)))
  }

  /** A sum of `n` colours from the unit cube has every channel in [0, n]. */
  lemma {:induction false} SumBounded(colors: nat -> Color, n: nat)
    requires forall k: nat :: InUnitCube(colors(k))
    ensures var sum := Sum(colors, n);
            0.0 <= sum.x <= n as real && 0.0 <= sum.y <= n as real && 0.0 <= sum.z <= n as real
  {
    if n != 0 {
      SumBounded(colors, n - 1);
      assert InUnitCube(colors(n - 1));
    }
  }

  /** In a world of conserving materials every sample colour lies in the
      unit cube. */
  lemma SampleColorsInUnitCube(cam: Camera, world: Hittable, env: Env,
                               draws: (nat, nat, nat) -> SampleDraws, i: nat, j: nat)
    requires Valid(env) && ConservingWorld(world)
    ensures WellFormedWorld(world)
    ensures forall k: nat :: InUnitCube(SampleColors(cam, world, env, draws, i, j)(k))
  {
    ConservingWorldIsWellFormed(world);
    forall k: nat ensures InUnitCube(SampleColors(cam, world, env, draws, i, j)(k)) {
      var d := draws(i, j, k);
      RayColorInUnitCube(GetRay(cam, i, j, d), cam.config.maxDepth, world, env, d.bounce);
    }
  }

  /** For a camera whose sample scale is `1 / samplesPerPixel`, as
      `initialize` sets it, in a world of conserving materials, the averaged
      pixel colour lies in the unit cube, so every byte `writeColor` produces
      for it lies in [0, 255]. */
  lemma PixelBytesInRange(cam: Camera, world: Hittable, env: Env,
                          draws: (nat, nat, nat) -> SampleDraws, i: nat, j: nat)
    requires 1 <= cam.config.samplesPerPixel
    requires cam.pixelSamplesScale * cam.config.samplesPerPixel as real == 1.0
    requires Valid(env) && ConservingWorld(world)
    ensures WellFormedWorld(world)
    ensures InUnitCube(PixelColor(cam, world, env, draws, i, j))
    ensures var rgb := WriteColor(PixelColor(cam, world, env, draws, i, j));
            0 <= rgb.r <= 255 && 0 <= rgb.g <= 255 && 0 <= rgb.b <= 255
  {
    SampleColorsInUnitCube(cam, world, env, draws, i, j);
    SumBounded(SampleColors(cam, world, env, draws, i, j), cam.config.samplesPerPixel);
    AverageInUnitCube(cam, world, env, draws, i, j);
  }

  /** The pixel colour is the sample sum divided by the sample count, so a
      sum with channels in [0, n] gives a colour in the unit cube. */
  lemma AverageInUnitCube(cam: Camera, world: Hittable, env: Env,
                          draws: (nat, nat, nat) -> SampleDraws, i: nat, j: nat)
    requires 1 <= cam.config.samplesPerPixel
    requires cam.pixelSamplesScale * cam.config.samplesPerPixel as real == 1.0
    requires WellFormedWorld(world)
    requires var sum := Sum(SampleColors(cam, world, env, draws, i, j), cam.config.samplesPerPixel);
             var n := cam.config.samplesPerPixel as real;
             0.0 <= sum.x <= n && 0.0 <= sum.y <= n && 0.0 <= sum.z <= n
    ensures InUnitCube(PixelColor(cam, world, env, draws, i, j))
  {
    var n := cam.config.samplesPerPixel;
    var sum := Sum(SampleColors(cam, world, env, draws, i, j), n);
    ScaledSumInUnitCube(cam.pixelSamplesScale, n as real, sum);
  }

  lemma ScaledSumInUnitCube(k: real, n: real, sum: Color)
    requires 0.0 < n && k * n == 1.0
    requires 0.0 <= sum.x <= n && 0.0 <= sum.y <= n && 0.0 <= sum.z <= n
    ensures InUnitCube(Scale(k, sum))
  {
    AverageBounded(k, n, sum.x);
    AverageBounded(k, n, sum.y);
    AverageBounded(k, n, sum.z);
  }

  /** Scaling a value in [0, n] by `1 / n` lands in [0, 1]. */
  lemma AverageBounded(k: real, n: real, x: real)
    requires 0.0 < n && k * n == 1.0 && 0.0 <= x <= n
    ensures 0.0 <= k * x <= 1.0
  {
    if k <= 0.0 {
      ProductNonNegative(-k, n);
      assert false;
    }
    ProductNonNegative(k, x);
    ProductNonNegative(k, n - x);
    assert Times(k, n - x) == 1.0 - k * x;
  }

  /** The position of pixel `(i, j)` in the row-major output. */
  lemma RowMajor(width: int, j: int, i: int)
    requires 0 <= i < width && 0 <= j
    ensures (j * width + i) / width == j && (j * width + i) % width == i
  {
    var k := j * width + i;
    var q, m := k / width, k % width;
    assert width * (q - j) == i - m;
    MultipleBelowWidth(width, q - j);
  }

  /** The only multiple of `width` strictly between `-width` and `width` is 0. */
  lemma MultipleBelowWidth(width: int, d: int)
    requires 0 < width && -width < width * d < width
    ensures d == 0
  {
  }

  /** The sample loop of `render`: the sum of the pixel's sample colours. */
  method SamplePixel(cam: Camera, world: Hittable, env: Env, draws: (nat, nat, nat) -> SampleDraws, i: nat, j: nat)
    returns (pixelColor: Color)
    requires WellFormedWorld(world)
    ensures pixelColor == Sum(SampleColors(cam, world, env, draws, i, j), IterationCount(cam.config.samplesPerPixel))
  {
    pixelColor := Accumulate(SampleColors(cam, world, env, draws, i, j), IterationCount(cam.config.samplesPerPixel));
  }

  /** The accumulation `pixelColor += colors(sample)` for `sample` from 0 up
      to `n`, starting from black. */
  method Accumulate(colors: nat -> Color, n: nat) returns (sum: Color)
    ensures sum == Sum(colors, n)
  {
    sum := Zero;
    var s := 0;
    while s < n
      invariant 0 <= s <= n
      invariant sum == Sum(colors, s)
    {
      sum := Add(sum, colors(s));
      s := s + 1;
    }
  }

  /** `render` without the stream: the pixel loop, rows top to bottom and
      pixels left to right, with the sample loop summing `rayColor` inside
      and `writeColor` applied to the scaled sum. */
  method Render(c: CameraConfig, world: Hittable, env: Env, draws: (nat, nat, nat) -> SampleDraws)
    returns (cam: Camera, image: seq<Rgb>)
    requires Configurable(c) && WellFormedWorld(world)
    ensures Initialized(cam, c, env)
    ensures |image| == cam.imageHeight * IterationCount(c.imageWidth)
    ensures InRowMajorOrder(image, IterationCount(c.imageWidth), cam, world, env, draws)
  {
    cam := Initialize(c, env);
    image := RenderCamera(cam, world, env, draws);
  }

  /** Pixel `k` of the image is the written colour of pixel
      `(k % width, k / width)`: rows top to bottom, each left to right. */
  predicate InRowMajorOrder(image: seq<Rgb>, width: nat, cam: Camera, world: Hittable, env: Env,
                            draws: (nat, nat, nat) -> SampleDraws)
    requires WellFormedWorld(world)
  {
    forall k :: 0 <= k < |image| ==>
      0 < width && image[k] == WriteColor(PixelColor(cam, world, env, draws, k % width, k / width))
  }

  /** The loops of `render` for an initialised camera. */
  method RenderCamera(cam: Camera, world: Hittable, env: Env, draws: (nat, nat, nat) -> SampleDraws)
    returns (image: seq<Rgb>)
    requires 1 <= cam.imageHeight && WellFormedWorld(world)
    ensures |image| == cam.imageHeight * IterationCount(cam.config.imageWidth)
    ensures InRowMajorOrder(image, IterationCount(cam.config.imageWidth), cam, world, env, draws)
  {
    var width := IterationCount(cam.config.imageWidth);
    image := [];
    var j := 0;
    while j < cam.imageHeight
      invariant 0 <= j <= cam.imageHeight
      invariant |image| == j * width
      invariant InRowMajorOrder(image, width, cam, world, env, draws)
    {
      var i := 0;
      while i < width
        invariant 0 <= i <= width
        invariant |image| == j * width + i
        invariant InRowMajorOrder(image, width, cam, world, env, draws)
      {
        var pixelColor := SamplePixel(cam, world, env, draws, i, j);
        ExtendImage(cam, world, env, draws, image, width, j, i);
        image := image + [WriteColor(Scale(cam.pixelSamplesScale, pixelColor))];
        i := i + 1;
      }
      assert |image| == (j + 1) * width;
      j := j + 1;
    }
  }

  /** Appending pixel `(i, j)` to a row-major image of `j` full rows and `i`
      pixels keeps every pixel at its row-major position. */
  lemma ExtendImage(cam: Camera, world: Hittable, env: Env, draws: (nat, nat, nat) -> SampleDraws,
                    image: seq<Rgb>, width: nat, j: nat, i: nat)
    requires WellFormedWorld(world) && i < width && |image| == j * width + i
    requires InRowMajorOrder(image, width, cam, world, env, draws)
    ensures InRowMajorOrder(image + [WriteColor(PixelColor(cam, world, env, draws, i, j))], width, cam, world, env, draws)
  {
    RowMajor(width, j, i);
  }
}

=== FILE: colors.dfy ===
/** color.h: the conversion of a colour to the three integers `writeColor`
    prints. */
module Colors {
  import opened Elementary
  import opened Vectors

  /** The three integers of one PPM pixel. */
  datatype Rgb = Rgb(r: int, g: int, b: int)

  /** `static_cast<int>(255.999 * x)`: truncation toward zero. */
  function ChannelByte(x: real): (n: int)
    ensures 0.0 <= x <= 1.0 ==> 0 <= n <= 255
    ensures x < 0.0 ==> n <= 0
    ensures 0.0 <= x ==> n as real <= 255.999 * x < n as real + 1.0
  {
    Truncate(255.999 * x)
  }

  /** The byte conversion is monotone. */
  lemma ChannelByteMonotone(x: real, y: real)
    requires x <= y
    ensures ChannelByte(x) <= ChannelByte(y)
  {
    TruncateMonotone(255.999 * x, 255.999 * y);
  }

  /** Black and full intensity map to 0 and 255. */
  lemma ChannelByteEnds()
    ensures ChannelByte(0.0) == 0 && ChannelByte(1.0) == 255
  {
  }

  /** Every byte value is produced: `k / 255` converts back to `k`. */
  lemma ChannelByteRoundTrip(k: int)
    requires 0 <= k <= 255
    ensures ChannelByte(k as real / 255.0) == k
  {
    var x := k as real / 255.0;
    assert 255.999 * x == k as real + 0.999 * x;
  }

  /** `writeColor` without the stream: the red channel is clamped to
      [0, 256], green and blue are not clamped. */
  function WriteColor(c: Color): (rgb: Rgb)
    ensures 0 <= rgb.r <= 256
    ensures 0 <= ChannelByte(c.x) <= 256 ==> rgb.r == ChannelByte(c.x)
    ensures ChannelByte(c.x) < 0 ==> rgb.r == 0
    ensures 256 < ChannelByte(c.x) ==> rgb.r == 256
    ensures rgb.g == ChannelByte(c.y) && rgb.b == ChannelByte(c.z)
    ensures InUnitCube(c) ==> 0 <= rgb.r <= 255 && 0 <= rgb.g <= 255 && 0 <= rgb.b <= 255
  {
    var red := ChannelByte(c.x);
    Rgb(if red < 0 then 0 else if 256 < red then 256 else red, ChannelByte(c.y), ChannelByte(c.z))
  }
}

=== FILE: elementary.dfy ===
/** Elementary real functions the renderer borrows from <cmath> and utils.h.
    `sqrt`, `tan` and PI have no definition here: callers supply them, and
    the only thing the model assumes about `sqrt` is `IsSqrt`. */
module Elementary {

  /** The one property assumed of a caller-supplied square root. */
  ghost predicate IsSqrt(sqrt: real -> real) {
    forall x: real :: 0.0 <= x ==> 0.0 <= sqrt(x) && sqrt(x) * sqrt(x) == x
  }

  function Abs(x: real): real {
    if x < 0.0 then -x else x
  }

  /** `std::fmin` on two non-NaN operands. */
  function Min(x: real, y: real): real {
    if x <= y then x else y
  }

  /** `std::pow(x, 5)`, written as a product. */
  function Pow5(x: real): (p: real)
    ensures 0.0 <= x <= 1.0 ==> 0.0 <= p <= 1.0
  {
    PowUnitBounded(x);
    x * x * x * x * x
  }

  lemma PowUnitBounded(x: real)
    ensures 0.0 <= x <= 1.0 ==> 0.0 <= x * x * x * x * x <= 1.0
  {
    if 0.0 <= x <= 1.0 {
      ProductUnitBounded(x, x);
      ProductUnitBounded(x, x * x);
      ProductUnitBounded(x, x * x * x);
      ProductUnitBounded(x, x * x * x * x);
    }
  }

  /** Two factors in [0,1] have a product in [0,1]. */
  lemma ProductUnitBounded(x: real, y: real)
    requires 0.0 <= x <= 1.0 && 0.0 <= y <= 1.0
    ensures 0.0 <= Times(x, y) <= y
  {
    ProductNonNegative(x, y);
    ProductNonNegative(1.0 - x, y);
  }

  /** utils.h `degreesToRadians`, with PI supplied by the caller. */
  function DegreesToRadians(d: real, pi: real): real {
    d * pi / 180.0
  }

  /** `static_cast<int>` of a double: truncation toward zero. The model's
      `int` is unbounded, so the out-of-range cast is not represented. */
  function Truncate(x: real): (n: int)
    ensures 0.0 <= x ==> 0 <= n && n as real <= x < n as real + 1.0
    ensures x < 0.0 ==> n <= 0 && n as real - 1.0 < x <= n as real
  {
    if 0.0 <= x then x.Floor else -((-x).Floor)
  }

  /** Truncation toward zero is monotone. */
  lemma TruncateMonotone(x: real, y: real)
    requires x <= y
    ensures Truncate(x) <= Truncate(y)
  {
  }

  /** `sqrt(x * x) == |x|`: the only root of x*x that is not negative. */
  lemma SqrtOfSquare(sqrt: real -> real, x: real)
    requires IsSqrt(sqrt)
    ensures sqrt(x * x) == Abs(x)
  {
    var s := sqrt(x * x);
    assert 0.0 <= s && s * s == x * x;
    SquareInjective(s, Abs(x));
  }

  /** The root of a non-negative number is zero exactly when the number is. */
  lemma SqrtFacts(sqrt: real -> real, x: real)
    requires IsSqrt(sqrt) && 0.0 <= x
    ensures 0.0 <= sqrt(x) && sqrt(x) * sqrt(x) == x
    ensures sqrt(x) == 0.0 <==> x == 0.0
  {
    SquareNonNegative(sqrt(x));
  }

  // Arithmetic facts the solver does not find unaided. A comparison such as
  // `0 < a * a` is rewritten by the solver before it can be used, so these
  // facts are stated about `Square` and `Times` applications instead.

  function Square(a: real): real {
    a * a
  }

  function Times(p: real, q: real): real {
    p * q
  }

  lemma ProductPositive(p: real, q: real)
    requires 0.0 < p && 0.0 < q
    ensures 0.0 < Times(p, q)
  {
  }

  lemma ProductNonNegative(p: real, q: real)
    requires 0.0 <= p && 0.0 <= q
    ensures 0.0 <= Times(p, q)
  {
  }

  lemma SquareNonNegative(a: real)
    ensures 0.0 <= Square(a)
    ensures a != 0.0 ==> 0.0 < Square(a)
  {
    if 0.0 < a {
      ProductPositive(a, a);
    } else if a < 0.0 {
      ProductPositive(-a, -a);
    }
  }

  /** Two reals that are not negative and have equal squares are equal. */
  lemma SquareInjective(p: real, q: real)
    requires 0.0 <= p && 0.0 <= q && p * p == q * q
    ensures p == q
  {
    if p + q != 0.0 {
      assert p - q == (p * p - q * q) / (p + q);
    }
  }
}

=== FILE: externals.dfy ===
/** Functions the renderer calls but whose definitions are not part of this
    model, supplied by the caller as values: `std::sqrt` and `std::tan`
    from <cmath>, PI from utils.h, and `hitRecord::setFaceNormal`, whose body
    is not available. */
module Externals {
  import opened Elementary
  import opened Vectors
  import opened Rays

  datatype Env = Env(
    sqrt: real -> real,
    tan: real -> real,
    pi: real,
    /** `setFaceNormal(r, outwardNormal)`, returning `(frontFace, normal)`. */
    setFaceNormal: (Ray, Vec3) -> (bool, Vec3))

  /** The only assumption made about the supplied functions. */
  ghost predicate Valid(env: Env) {
    IsSqrt(env.sqrt)
  }
}

=== FILE: hittables.dfy ===
/** sphere.h and hittableList.h: ray intersection with spheres and with
    lists of hittable objects, which keep the closest hit. */
module Hittables {
  import opened Options
  import opened Elementary
  import opened Vectors
  import opened Intervals
  import opened Rays
  import opened Surfaces
  import opened Externals

  datatype Sphere = Sphere(center: Point3, radius: real, mat: Material)

  /** The hittable objects of the scene: a sphere, or a list of objects
      (which may itself hold lists). */
  datatype Hittable = SphereObject(sphere: Sphere) | ListObject(objects: seq<Hittable>)

  /** The sphere constructor clamps the radius with `fmax(0, radius)`. */
  function MakeSphere(center: Point3, radius: real, mat: Material): (s: Sphere)
    ensures 0.0 <= s.radius && s.center == center && s.mat == mat
    ensures 0.0 <= radius ==> s.radius == radius
    ensures radius < 0.0 ==> s.radius == 0.0
  {
    Sphere(center, if 0.0 <= radius then radius else 0.0, mat)
  }

  /** The coefficients of the ray-sphere equation `a t^2 - 2 h t + c = 0`,
      with `oc = center - origin`: `a = |D|^2`, `h = D . oc` and
      `c = |oc|^2 - radius^2`. */
  datatype Quadratic = Quadratic(a: real, h: real, c: real)

  function Coefficients(s: Sphere, r: Ray): (q: Quadratic)
    ensures 0.0 <= q.a && (q.a == 0.0 <==> r.direction == Zero)
    ensures r.direction == Zero ==> q.h == 0.0
  {
    var oc := Sub(s.center, r.origin);
    assert r.direction == Zero ==> Dot(r.direction, oc) == 0.0 by {
      if r.direction == Zero {
        DotScale(0.0, r.direction, oc);
      }
    }
    Quadratic(LengthSquared(r.direction), Dot(r.direction, oc), LengthSquared(oc) - Square(s.radius))
  }

  function QuadraticValue(q: Quadratic, t: real): real {
    q.a * t * t - 2.0 * q.h * t + q.c
  }

  function Discriminant(q: Quadratic): real {
    q.h * q.h - q.a * q.c
  }

  function NearRoot(q: Quadratic, sqrtd: real): real
    requires q.a != 0.0
  {
    (q.h - sqrtd) / q.a
  }

  function FarRoot(q: Quadratic, sqrtd: real): real
    requires q.a != 0.0
  {
    (q.h + sqrtd) / q.a
  }

  /** The point at parameter `t` of the ray lies on the sphere. */
  ghost predicate OnSphere(s: Sphere, r: Ray, t: real) {
    LengthSquared(Sub(At(r, t), s.center)) == Square(s.radius)
  }

  /** The roots of the quadratic are exactly the parameters at which the ray
      meets the sphere. */
  lemma OnSphereIffRoot(s: Sphere, r: Ray, t: real)
    ensures OnSphere(s, r, t) <==> QuadraticValue(Coefficients(s, r), t) == 0.0
  {
    var oc := Sub(s.center, r.origin);
    var d := r.direction;
    var u := Scale(t, d);
    assert Sub(At(r, t), s.center) == Sub(u, oc);
    LengthSquaredSub(u, oc);
    LengthSquaredScale(t, d);
    DotScale(t, d, oc);
    ExpandedSquare(LengthSquared(Sub(u, oc)), LengthSquared(u), Dot(u, oc),
                   Coefficients(s, r), Square(s.radius), t);
  }

  /** |t d - oc|^2 = r^2 rearranged into the sphere's quadratic in `t`. */
  lemma ExpandedSquare(l: real, tdSquared: real, tdDotOc: real, q: Quadratic, radiusSquared: real, t: real)
    requires l == tdSquared - 2.0 * tdDotOc + (q.c + radiusSquared)
    requires tdSquared == t * t * q.a && tdDotOc == t * q.h
    ensures l == radiusSquared <==> QuadraticValue(q, t) == 0.0
  {
  }

  /** `sphere::hit` as written, up to the choice of root: a negative
      discriminant misses; otherwise the nearer root is taken if `rayT`
      surrounds it, else the farther one. A zero direction makes `a`, `h`
      and the discriminant zero, so both roots are `0 / 0`, NaN, which no
      interval surrounds. A zero radius is not refused. */
  function SelectRoot(s: Sphere, r: Ray, rayT: Interval, sqrt: real -> real): (root: Option<real>)
    ensures root.Some? ==> rayT.Surrounds(root.value)
  {
    var q := Coefficients(s, r);
    if q.a == 0.0 || Discriminant(q) < 0.0 then None
    else FirstSurrounded(rayT, NearRoot(q, sqrt(Discriminant(q))), FarRoot(q, sqrt(Discriminant(q))))
  }

  /** The first of two candidates that `rayT` surrounds, if any. */
  function FirstSurrounded(rayT: Interval, near: real, far: real): (root: Option<real>)
    ensures root.Some? ==> rayT.Surrounds(root.value)
  {
    if rayT.Surrounds(near) then Some(near)
    else if rayT.Surrounds(far) then Some(far)
    else None
  }

  /** The root chosen is on the sphere and is the smallest parameter in
      `rayT` at which the ray meets the sphere; there is none exactly when
      no root is chosen. */
  lemma SelectRootIsClosest(s: Sphere, r: Ray, rayT: Interval, sqrt: real -> real)
    requires IsSqrt(sqrt) && r.direction != Zero
    ensures var root := SelectRoot(s, r, rayT, sqrt);
            root.Some? ==> OnSphere(s, r, root.value)
    ensures var root := SelectRoot(s, r, rayT, sqrt);
            root.None? <==> forall t :: rayT.Surrounds(t) ==> !OnSphere(s, r, t)
    ensures var root := SelectRoot(s, r, rayT, sqrt);
            root.Some? ==> forall t :: rayT.Surrounds(t) && OnSphere(s, r, t) ==> root.value <= t
  {
    var q := Coefficients(s, r);
    var discriminant := Discriminant(q);
    forall t {
      OnSphereIffRoot(s, r, t);
    }
    if discriminant < 0.0 {
      forall t {
        NoRealRoot(q, t);
      }
    } else {
      var sqrtd := sqrt(discriminant);
      SqrtFacts(sqrt, discriminant);
      forall t {
        QuadraticRoots(q, sqrtd, t);
      }
      RootsOrdered(q, sqrtd);
    }
  }

  /** With a negative discriminant the quadratic has no real root. */
  lemma NoRealRoot(q: Quadratic, t: real)
    requires 0.0 < q.a && Discriminant(q) < 0.0
    ensures QuadraticValue(q, t) != 0.0
  {
    var u := q.a * t - q.h;
    assert q.a * QuadraticValue(q, t) == Square(u) - Discriminant(q);
    SquareNonNegative(u);
  }

  /** With a square root `sqrtd` of the discriminant, the roots of the
      quadratic are exactly `(h - sqrtd) / a` and `(h + sqrtd) / a`. */
  lemma QuadraticRoots(q: Quadratic, sqrtd: real, t: real)
    requires 0.0 < q.a && sqrtd * sqrtd == Discriminant(q)
    ensures QuadraticValue(q, t) == 0.0 <==> t == NearRoot(q, sqrtd) || t == FarRoot(q, sqrtd)
  {
    var u := q.a * t - q.h;
    assert q.a * QuadraticValue(q, t) == (u - sqrtd) * (u + sqrtd);
    assert u == sqrtd <==> t == (q.h + sqrtd) / q.a;
    assert u == -sqrtd <==> t == (q.h - sqrtd) / q.a;
  }

  lemma RootsOrdered(q: Quadratic, sqrtd: real)
    requires 0.0 < q.a && 0.0 <= sqrtd
    ensures NearRoot(q, sqrtd) <= FarRoot(q, sqrtd)
  {
    assert (q.h + sqrtd) / q.a - (q.h - sqrtd) / q.a == 2.0 * sqrtd / q.a;
  }

  /** `sphere::hit`, with a zero radius refused: the hit point is the ray
      at the chosen root, the outward normal is `(p - center) / radius`,
      oriented by `setFaceNormal`, and the material is the sphere's. */
  function SphereHit(s: Sphere, r: Ray, rayT: Interval, env: Env): (res: Option<HitRecord>)
    ensures res.Some? ==> s.radius != 0.0 && rayT.Surrounds(res.value.t)
    ensures res.Some? ==> res.value.p == At(r, res.value.t) && res.value.mat == s.mat
    ensures Valid(env) && res.Some? ==> OnSphere(s, r, res.value.t)
  {
    if s.radius == 0.0 then None
    else
      match SelectRoot(s, r, rayT, env.sqrt)
      case None => None
      case Some(t) =>
        assert Valid(env) ==> OnSphere(s, r, t) by {
          if Valid(env) && r.direction != Zero {
            SelectRootIsClosest(s, r, rayT, env.sqrt);
          }
        }
        var p := At(r, t);
        var outwardNormal := Div(Sub(p, s.center), s.radius);
        var (frontFace, normal) := env.setFaceNormal(r, outwardNormal);
        Some(HitRecord(p, normal, s.mat, t, frontFace))
  }

  /** A sphere of non-zero radius is missed exactly when root selection
      finds no root in the window. */
  lemma SphereMissIffNoRoot(s: Sphere, r: Ray, rayT: Interval, env: Env)
    requires s.radius != 0.0
    ensures SphereHit(s, r, rayT, env).None? <==> SelectRoot(s, r, rayT, env.sqrt).None?
  {
  }

  /** The outward normal of a hit on a sphere of non-zero radius has unit
      length. */
  lemma OutwardNormalIsUnit(s: Sphere, r: Ray, t: real)
    requires s.radius != 0.0 && OnSphere(s, r, t)
    ensures LengthSquared(Div(Sub(At(r, t), s.center), s.radius)) == 1.0
  {
    assert s.radius * s.radius == LengthSquared(Sub(At(r, t), s.center));
    UnitVectorLength(Sub(At(r, t), s.center), s.radius);
  }

  /** A zero-radius sphere, which the constructor's clamp produces from any
      non-positive radius, is hit by every ray through its centre, at the
      parameter where the ray meets the centre: the hit point is the centre,
      so the outward normal is the zero vector divided by zero. */
  lemma ZeroRadiusSphereIsHit(s: Sphere, r: Ray, rayT: Interval, t0: real, sqrt: real -> real)
    requires sqrt(0.0) == 0.0
    requires s.radius == 0.0 && r.direction != Zero
    requires At(r, t0) == s.center && rayT.Surrounds(t0)
    ensures SelectRoot(s, r, rayT, sqrt) == Some(t0)
    ensures Sub(At(r, t0), s.center) == Zero
  {
    var d := r.direction;
    var q := Coefficients(s, r);
    var oc := Sub(s.center, r.origin);
    assert oc == Scale(t0, d);
    DotScale(t0, d, d);
    DotProperties(d, Scale(t0, d));
    DotProperties(d, d);
    assert q.h == t0 * q.a;
    LengthSquaredScale(t0, d);
    assert q.c == t0 * t0 * q.a;
    assert Discriminant(q) == 0.0;
    assert NearRoot(q, sqrt(Discriminant(q))) == t0;
  }

  /** The corrected sphere hit never reports a zero-radius sphere. */
  lemma ZeroRadiusSphereIsMissed(s: Sphere, r: Ray, rayT: Interval, env: Env)
    requires s.radius == 0.0
    ensures SphereHit(s, r, rayT, env).None?
  {
  }

  /** The materials of the spheres an object holds. */
  function MaterialsOf(h: Hittable): set<Material>
    decreases h
  {
    match h
    case SphereObject(s) => {s.mat}
    case ListObject(objects) => MaterialsOfAll(objects)
  }

  function MaterialsOfAll(objects: seq<Hittable>): set<Material>
    decreases objects
  {
    if objects == [] then {} else MaterialsOf(objects[0]) + MaterialsOfAll(objects[1..])
  }

  /** `hittable::hit`, dispatched on the object. */
  function Hit(h: Hittable, r: Ray, rayT: Interval, env: Env): (res: Option<HitRecord>)
    decreases h
    ensures res.Some? ==> rayT.Surrounds(res.value.t) && res.value.p == At(r, res.value.t)
    ensures res.Some? ==> res.value.mat in MaterialsOf(h)
  {
    match h
    case SphereObject(s) => SphereHit(s, r, rayT, env)
    case ListObject(objects) => Scan(objects, r, rayT, rayT.max, None, env)
  }

  /** The loop of `hittableList::hit` over the remaining `objects`: each is
      asked for a hit in `(rayT.min, closest)`; a hit becomes the best so far
      and narrows `closest` to its parameter. */
  function Scan(objects: seq<Hittable>, r: Ray, rayT: Interval, closest: Bound,
                best: Option<HitRecord>, env: Env): (res: Option<HitRecord>)
    requires Le(closest, rayT.max)
    requires best.Some? ==> closest == Finite(best.value.t) && rayT.Surrounds(best.value.t)
                            && best.value.p == At(r, best.value.t)
    decreases objects, 1
    ensures res.Some? ==> rayT.Surrounds(res.value.t) && res.value.p == At(r, res.value.t)
    ensures res.Some? ==> res == best || res.value.mat in MaterialsOfAll(objects)
    ensures res.Some? ==> Le(Finite(res.value.t), closest)
    ensures res.None? <==> best.None? && forall i :: 0 <= i < |objects| ==> Hit(objects[i], r, Interval(rayT.min, closest), env).None?
  {
    if objects == [] then best
    else ScanStep(objects, Hit(objects[0], r, Interval(rayT.min, closest), env), r, rayT, closest, best, env)
  }

  /** One iteration of the loop, given the first object's answer `hit` on
      `(rayT.min, closest)`: a hit becomes the best so far and narrows
      `closest` to its parameter, a miss keeps both; the rest of the list is
      then scanned. */
  function ScanStep(objects: seq<Hittable>, hit: Option<HitRecord>, r: Ray, rayT: Interval, closest: Bound,
                    best: Option<HitRecord>, env: Env): (res: Option<HitRecord>)
    requires objects != [] && hit == Hit(objects[0], r, Interval(rayT.min, closest), env)
    requires Le(closest, rayT.max)
    requires best.Some? ==> closest == Finite(best.value.t) && rayT.Surrounds(best.value.t)
                            && best.value.p == At(r, best.value.t)
    decreases objects, 0
    ensures res.Some? ==> rayT.Surrounds(res.value.t) && res.value.p == At(r, res.value.t)
    ensures res.Some? ==> res == best || res.value.mat in MaterialsOfAll(objects)
    ensures res.Some? ==> Le(Finite(res.value.t), closest)
    ensures res.None? <==> best.None? && forall i :: 0 <= i < |objects| ==> Hit(objects[i], r, Interval(rayT.min, closest), env).None?
  {
    match hit
    case Some(rec) =>
      SurroundsNarrower(rayT, closest, rec.t);
      Scan(objects[1..], r, rayT, Finite(rec.t), Some(rec), env)
    case None =>
      Scan(objects[1..], r, rayT, closest, best, env)
  }

  /** The ray meets the object at parameter `t` (a sphere of zero radius is
      never met). */
  ghost predicate OnSurface(h: Hittable, r: Ray, t: real)
    decreases h
  {
    match h
    case SphereObject(s) => s.radius != 0.0 && OnSphere(s, r, t)
    case ListObject(objects) => OnAny(objects, r, t)
  }

  ghost predicate OnAny(objects: seq<Hittable>, r: Ray, t: real)
    decreases objects
  {
    objects != [] && (OnSurface(objects[0], r, t) || OnAny(objects[1..], r, t))
  }

  /** The closest-hit law: `hit` misses exactly when no surface point lies
      in `rayT`, and otherwise reports a surface point with the smallest
      parameter in `rayT`. */
  lemma {:induction false} HitIsClosest(h: Hittable, r: Ray, rayT: Interval, env: Env)
    requires Valid(env) && r.direction != Zero
    decreases h
    ensures var res := Hit(h, r, rayT, env);
            res.None? <==> forall t :: rayT.Surrounds(t) ==> !OnSurface(h, r, t)
    ensures var res := Hit(h, r, rayT, env);
            res.Some? ==> OnSurface(h, r, res.value.t)
    ensures var res := Hit(h, r, rayT, env);
            res.Some? ==> forall t :: rayT.Surrounds(t) && OnSurface(h, r, t) ==> res.value.t <= t
  {
    match h
    case SphereObject(s) =>
      if s.radius != 0.0 {
        SelectRootIsClosest(s, r, rayT, env.sqrt);
      }
    case ListObject(objects) =>
      assert Interval(rayT.min, rayT.max) == rayT;
      ScanIsClosest(objects, r, rayT, rayT.max, None, env);
  }

  /** A list misses exactly when every member misses on the whole of
      `rayT`: until the first hit the window is `rayT` itself. */
  lemma ListMissIffMembersMiss(objects: seq<Hittable>, r: Ray, rayT: Interval, env: Env)
    ensures Hit(ListObject(objects), r, rayT, env).None? <==>
            forall i :: 0 <= i < |objects| ==> Hit(objects[i], r, rayT, env).None?
  {
    assert Interval(rayT.min, rayT.max) == rayT;
  }

  /** The loop keeps the closest hit: the result is the best so far unless a
      remaining object has a surface point in `(rayT.min, closest)`, in which
      case it is the closest such point. */
  lemma {:induction false} ScanIsClosest(objects: seq<Hittable>, r: Ray, rayT: Interval, closest: Bound,
                                         best: Option<HitRecord>, env: Env)
    requires Valid(env) && r.direction != Zero
    requires Le(closest, rayT.max)
    requires best.Some? ==> closest == Finite(best.value.t) && rayT.Surrounds(best.value.t)
                            && best.value.p == At(r, best.value.t)
    decreases objects
    ensures var res := Scan(objects, r, rayT, closest, best, env);
            res.None? <==> best.None? && forall t :: Interval(rayT.min, closest).Surrounds(t) ==> !OnAny(objects, r, t)
    ensures var res := Scan(objects, r, rayT, closest, best, env);
            res == best || (res.Some? && Interval(rayT.min, closest).Surrounds(res.value.t) && OnAny(objects, r, res.value.t))
    ensures var res := Scan(objects, r, rayT, closest, best, env);
            res.Some? ==> forall t :: Interval(rayT.min, closest).Surrounds(t) && OnAny(objects, r, t) ==> res.value.t <= t
  {
    var window := Interval(rayT.min, closest);
    if objects != [] {
      var rest := objects[1..];
      HitIsClosest(objects[0], r, window, env);
      match Hit(objects[0], r, window, env)
      case Some(rec) =>
        SurroundsNarrower(rayT, closest, rec.t);
        ScanIsClosest(rest, r, rayT, Finite(rec.t), Some(rec), env);
        var res := Scan(rest, r, rayT, Finite(rec.t), Some(rec), env);
        var narrower := Interval(rayT.min, Finite(rec.t));
        forall t | window.Surrounds(t) && narrower.Surrounds(t)
          ensures window.Surrounds(t)
        {
        }
        forall t | window.Surrounds(t) && OnAny(objects, r, t)
          ensures res.value.t <= t
        {
          if t < rec.t {
            assert narrower.Surrounds(t);
            assert !OnSurface(objects[0], r, t);
          }
        }
      case None =>
        ScanIsClosest(rest, r, rayT, closest, best, env);
    }
  }

  /** `hittableList(obj)`: a list holding one object. */
  function Single(obj: Hittable): (list: Hittable)
    ensures list.ListObject? && list.objects == [obj]
  {
    ListObject([obj])
  }

  /** A list holding one object hits exactly as the object does. */
  lemma SingleHit(obj: Hittable, r: Ray, rayT: Interval, env: Env)
    ensures Hit(Single(obj), r, rayT, env) == Hit(obj, r, rayT, env)
  {
    assert Interval(rayT.min, rayT.max) == rayT;
    assert [obj][1..] == [];
    match Hit(obj, r, rayT, env)
    case Some(rec) =>
      assert Scan([obj], r, rayT, rayT.max, None, env) == Scan([], r, rayT, Finite(rec.t), Some(rec), env);
    case None =>
      assert Scan([obj], r, rayT, rayT.max, None, env) == Scan([], r, rayT, rayT.max, None, env);
  }

  /** `hittableList::clear`: afterwards the list hits nothing. */
  function Clear(list: Hittable): (cleared: Hittable)
    requires list.ListObject?
    ensures cleared.ListObject? && cleared.objects == []
    ensures forall r: Ray, rayT: Interval, env: Env :: Hit(cleared, r, rayT, env).None?
  {
    ListObject([])
  }

  /** `hittableList::add`: appends an object. */
  function AddObject(list: Hittable, obj: Hittable): (added: Hittable)
    requires list.ListObject?
    ensures added.ListObject? && |added.objects| == |list.objects| + 1
    ensures added.objects[..|list.objects|] == list.objects && added.objects[|list.objects|] == obj
  {
    ListObject(list.objects + [obj])
  }

  /** After `add`, the list's hit is the new object's hit when it lies
      strictly closer than the old list's closest hit, and the old list's
      hit otherwise. */
  lemma AddHit(list: Hittable, obj: Hittable, r: Ray, rayT: Interval, env: Env)
    requires list.ListObject?
    ensures var before := Hit(list, r, rayT, env);
            var closest := if before.Some? then Finite(before.value.t) else rayT.max;
            var newHit := Hit(obj, r, Interval(rayT.min, closest), env);
            Hit(AddObject(list, obj), r, rayT, env) == if newHit.Some? then newHit else before
  {
    ScanAppend(list.objects, obj, r, rayT, rayT.max, None, env);
  }

  /** Scanning `objects + [obj]` is scanning `objects`, then `obj` with the
      window narrowed to the best hit so far. */
  lemma {:induction false} ScanAppend(objects: seq<Hittable>, obj: Hittable, r: Ray, rayT: Interval,
                                      closest: Bound, best: Option<HitRecord>, env: Env)
    requires Le(closest, rayT.max)
    requires best.Some? ==> closest == Finite(best.value.t) && rayT.Surrounds(best.value.t)
                            && best.value.p == At(r, best.value.t)
    decreases objects
    ensures var mid := Scan(objects, r, rayT, closest, best, env);
            var midClosest := if mid.Some? then Finite(mid.value.t) else closest;
            var newHit := Hit(obj, r, Interval(rayT.min, midClosest), env);
            Scan(objects + [obj], r, rayT, closest, best, env) == if newHit.Some? then newHit else mid
  {
    if objects == [] {
      assert objects + [obj] == [obj];
      assert [obj][1..] == [];
    } else {
      assert (objects + [obj])[1..] == objects[1..] + [obj];
      match Hit(objects[0], r, Interval(rayT.min, closest), env)
      case Some(rec) =>
        SurroundsNarrower(rayT, closest, rec.t);
        ScanAppend(objects[1..], obj, r, rayT, Finite(rec.t), Some(rec), env);
      case None =>
        ScanAppend(objects[1..], obj, r, rayT, closest, best, env);
    }
  }
}

=== FILE: intervals.dfy ===
/** interval.h: a range of reals whose bounds may be infinite. */
module Intervals {
  import opened Options

  /** A bound: a real, or one of the two IEEE infinities. */
  datatype Bound = NegInf | Finite(value: real) | PosInf

  function Rank(b: Bound): int {
    match b
    case NegInf => 0
    case Finite(_) => 1
    case PosInf => 2
  }

  /** `a <= b` on the extended reals. */
  predicate Le(a: Bound, b: Bound) {
    if a.Finite? && b.Finite? then a.value <= b.value else Rank(a) <= Rank(b)
  }

  /** `a < b` on the extended reals. */
  predicate Lt(a: Bound, b: Bound) {
    if a.Finite? && b.Finite? then a.value < b.value else Rank(a) < Rank(b)
  }

  datatype Interval = Interval(min: Bound, max: Bound) {

    /** `size()`: `max - min` on the extended reals; `None` stands for the
        NaN of infinity minus the same infinity. */
    function Size(): (s: Option<Bound>)
      ensures s.None? <==> min == max && !min.Finite?
      ensures s.Some? ==> (Lt(s.value, Finite(0.0)) <==> Lt(max, min))
      ensures min.Finite? && max.Finite? ==> s == Some(Finite(max.value - min.value))
    {
      match (max, min)
      case (Finite(hi), Finite(lo)) => Some(Finite(hi - lo))
      case (PosInf, PosInf) => None
      case (NegInf, NegInf) => None
      case (PosInf, _) => Some(PosInf)
      case (_, NegInf) => Some(PosInf)
      case (NegInf, _) => Some(NegInf)
      case (_, PosInf) => Some(NegInf)
    }

    /** `contains(x)`: `min <= x <= max`. */
    predicate Contains(x: real) {
      Le(min, Finite(x)) && Le(Finite(x), max)
    }

    /** `surrounds(x)`: `min < x < max`. */
    predicate Surrounds(x: real) {
      Lt(min, Finite(x)) && Lt(Finite(x), max)
    }

    /** `clamp(x)`, which calls `std::clamp(x, min, max)`; that function
        requires `min <= max`. */
    function Clamp(x: real): (r: Bound)
      requires Le(min, max)
      ensures Le(min, r) && Le(r, max)
      ensures Contains(x) ==> r == Finite(x)
      ensures r == Finite(x) || r == min || r == max
      ensures Lt(Finite(x), min) ==> r == min
      ensures Lt(max, Finite(x)) ==> r == max
    {
      if Lt(Finite(x), min) then min
      else if Lt(max, Finite(x)) then max
      else Finite(x)
    }
  }

  /** The default constructor: `min = +INF`, `max = -INF`. */
  function Default(): (i: Interval)
    ensures forall x: real :: !i.Contains(x) && !i.Surrounds(x)
  {
    Interval(PosInf, NegInf)
  }

  /** `interval::empty`. */
  function Empty(): (i: Interval)
    ensures forall x: real :: !i.Contains(x) && !i.Surrounds(x)
    ensures i.Size() == Some(NegInf)
  {
    Interval(PosInf, NegInf)
  }

  /** `interval::universe`. */
  function Universe(): (i: Interval)
    ensures forall x: real :: i.Contains(x) && i.Surrounds(x)
    ensures i.Size() == Some(PosInf)
  {
    Interval(NegInf, PosInf)
  }

  /** Strict containment implies containment, and the two differ only at a
      finite end point. */
  lemma SurroundsVersusContains(i: Interval, x: real)
    ensures i.Surrounds(x) ==> i.Contains(x)
    ensures i.Contains(x) && !i.Surrounds(x) <==> i.Contains(x) && (i.min == Finite(x) || i.max == Finite(x))
  {
  }

  /** Shrinking the upper bound shrinks the set of surrounded values. */
  lemma SurroundsNarrower(i: Interval, hi: Bound, x: real)
    requires Le(hi, i.max)
    ensures Interval(i.min, hi).Surrounds(x) ==> i.Surrounds(x)
  {
  }
}

=== FILE: materials.dfy ===
/** material.h: how each material scatters a ray that hit it. The random
    values a scatter draws are passed in as a `ScatterDraw`. */
module Materials {
  import opened Elementary
  import opened Vectors
  import opened Rays
  import opened Surfaces

  /** The draws of one scatter event: the sample `randomUnitVec3` accepted
      (Lambertian, Metal) and the value of `randomDouble()` in [0, 1)
      (Dielectric). */
  datatype ScatterDraw = ScatterDraw(unitSample: Vec3, uniform: real)

  /** `scatter`'s boolean result and its two out-parameters, which every
      variant writes even when it returns false. */
  datatype ScatterResult = ScatterResult(scatters: bool, attenuation: Color, scattered: Ray)

  const White: Color := Vec3(1.0, 1.0, 1.0)

  /** A dielectric's index must be positive. The source divides by the index
      and by `1 + ri`, so an index of 0 or -1 divides by zero; negative
      indices have no physical meaning and are not modelled. */
  predicate WellFormed(m: Material) {
    m.Dielectric? ==> 0.0 < m.indexOfRefraction
  }

  /** The material never brightens a channel: albedos lie in [0, 1]. */
  predicate EnergyConserving(m: Material) {
    match m
    case Lambertian(albedo) => InUnitCube(albedo)
    case Metal(albedo, _) => InUnitCube(albedo)
    case Dielectric(_) => true
  }

  /** The virtual `material::scatter`, dispatched on the variant. */
  function Scatter(m: Material, rIn: Ray, rec: HitRecord, draw: ScatterDraw, sqrt: real -> real): (res: ScatterResult)
    requires WellFormed(m)
    ensures res.scattered.origin == rec.p
    ensures !m.Metal? ==> res.scatters
    ensures EnergyConserving(m) ==> InUnitCube(res.attenuation)
  {
    match m
    case Lambertian(albedo) => LambertianScatter(albedo, rec, draw)
    case Metal(albedo, fuzz) => MetalScatter(albedo, fuzz, rIn, rec, draw)
    case Dielectric(index) => DielectricScatter(index, rIn, rec, draw, sqrt)
  }

  /** `lambertian::scatter`: always scatters, along `normal + sample`, or
      along the bare normal when that sum is `nearZero`. The scattered
      direction is therefore never `nearZero` unless the normal is. */
  function LambertianScatter(albedo: Color, rec: HitRecord, draw: ScatterDraw): (res: ScatterResult)
    ensures res.scatters && res.attenuation == albedo && res.scattered.origin == rec.p
    ensures !NearZero(Add(rec.normal, draw.unitSample)) ==>
              res.scattered.direction == Add(rec.normal, draw.unitSample)
    ensures NearZero(Add(rec.normal, draw.unitSample)) ==> res.scattered.direction == rec.normal
    ensures !NearZero(rec.normal) ==> !NearZero(res.scattered.direction)
  {
    var sum := Add(rec.normal, draw.unitSample);
    var dir := if NearZero(sum) then rec.normal else sum;
    ScatterResult(true, albedo, Ray(rec.p, dir))
  }

  /** `metal::scatter`: the mirror reflection perturbed by `fuzz` times the
      unit sample; it scatters exactly when that direction leaves the
      surface. */
  function MetalScatter(albedo: Color, fuzz: real, rIn: Ray, rec: HitRecord, draw: ScatterDraw): (res: ScatterResult)
    ensures res.scatters <==> Dot(res.scattered.direction, rec.normal) > 0.0
    ensures res.attenuation == albedo && res.scattered.origin == rec.p
    ensures fuzz == 0.0 ==> res.scattered.direction == Reflect(rIn.direction, rec.normal)
    ensures fuzz == 0.0 && LengthSquared(rec.normal) == 1.0 && Dot(rIn.direction, rec.normal) < 0.0 ==>
              res.scatters
  {
    var dir := Add(Reflect(rIn.direction, rec.normal), Scale(fuzz, draw.unitSample));
    var scattered := Ray(rec.p, dir);
    ScatterResult(Dot(scattered.direction, rec.normal) > 0.0, albedo, scattered)
  }

  /** The relative index `ri`: `1 / indexOfRefraction` on a front face,
      `indexOfRefraction` on a back face. */
  function RelativeIndex(index: real, frontFace: bool): (ri: real)
    requires 0.0 < index
    ensures 0.0 < ri
    ensures frontFace ==> ri * index == 1.0
    ensures !frontFace ==> ri == index
  {
    if frontFace then 1.0 / index else index
  }

  /** `cosTheta = fmin(dot(-unitDir, normal), 1)`. */
  function CosTheta(unitDir: Vec3, normal: Vec3): (c: real)
    ensures c <= 1.0
    ensures Dot(Neg(unitDir), normal) <= 1.0 ==> c == -Dot(unitDir, normal)
  {
    Min(Dot(Neg(unitDir), normal), 1.0)
  }

  /** `cannotRefract = ri * sinTheta > 1` with `sinTheta = sqrt(1 - cos^2)`.
      When `1 - cos^2` is negative the root is NaN and the comparison is
      false, so the test fails. */
  predicate CannotRefract(ri: real, cosTheta: real, sqrt: real -> real) {
    var sinSquared := 1.0 - cosTheta * cosTheta;
    0.0 <= sinSquared && ri * sqrt(sinSquared) > 1.0
  }

  /** `dielectric::scatter`: never absorbs, reflects under total internal
      reflection or when Schlick's reflectance beats the uniform draw, and
      refracts otherwise. */
  function DielectricScatter(index: real, rIn: Ray, rec: HitRecord, draw: ScatterDraw, sqrt: real -> real): (res: ScatterResult)
    requires 0.0 < index
    ensures res.scatters && res.attenuation == White && res.scattered.origin == rec.p
  {
    var ri := RelativeIndex(index, rec.frontFace);
    var unitDir := UnitVector(rIn.direction, sqrt);
    var cosTheta := CosTheta(unitDir, rec.normal);
    var dir :=
      if CannotRefract(ri, cosTheta, sqrt) || Reflectance(cosTheta, ri) > draw.uniform
      then Reflect(unitDir, rec.normal)
      else Refract(unitDir, rec.normal, ri, sqrt);
    ScatterResult(true, White, Ray(rec.p, dir))
  }

  /** Which way a dielectric sends the ray: the mirror direction under total
      internal reflection, and otherwise the mirror direction when Schlick's
      reflectance exceeds the uniform draw and the refracted one when it
      does not. */
  lemma DielectricScatterDirection(index: real, rIn: Ray, rec: HitRecord, draw: ScatterDraw, sqrt: real -> real)
    requires 0.0 < index
    ensures var unitDir := UnitVector(rIn.direction, sqrt);
            var ri := RelativeIndex(index, rec.frontFace);
            CannotRefract(ri, CosTheta(unitDir, rec.normal), sqrt) ==>
              DielectricScatter(index, rIn, rec, draw, sqrt).scattered.direction == Reflect(unitDir, rec.normal)
    ensures var unitDir := UnitVector(rIn.direction, sqrt);
            var ri := RelativeIndex(index, rec.frontFace);
            var cosTheta := CosTheta(unitDir, rec.normal);
            !CannotRefract(ri, cosTheta, sqrt) && Reflectance(cosTheta, ri) <= draw.uniform ==>
              DielectricScatter(index, rIn, rec, draw, sqrt).scattered.direction == Refract(unitDir, rec.normal, ri, sqrt)
    ensures var unitDir := UnitVector(rIn.direction, sqrt);
            var ri := RelativeIndex(index, rec.frontFace);
            var cosTheta := CosTheta(unitDir, rec.normal);
            !CannotRefract(ri, cosTheta, sqrt) && Reflectance(cosTheta, ri) > draw.uniform ==>
              DielectricScatter(index, rIn, rec, draw, sqrt).scattered.direction == Reflect(unitDir, rec.normal)
  {
  }

  /** Under total internal reflection the uniform draw does not matter. */
  lemma TotalInternalReflectionIgnoresDraw(index: real, rIn: Ray, rec: HitRecord,
                                           d1: ScatterDraw, d2: ScatterDraw, sqrt: real -> real)
    requires 0.0 < index
    requires CannotRefract(RelativeIndex(index, rec.frontFace),
                           CosTheta(UnitVector(rIn.direction, sqrt), rec.normal), sqrt)
    ensures DielectricScatter(index, rIn, rec, d1, sqrt) == DielectricScatter(index, rIn, rec, d2, sqrt)
  {
  }

  /** A ray entering a medium at least as dense as the one it leaves (front
      face, index >= 1) is never totally internally reflected. */
  lemma NoTotalInternalReflectionEntering(index: real, cosTheta: real, sqrt: real -> real)
    requires IsSqrt(sqrt) && 1.0 <= index
    ensures !CannotRefract(RelativeIndex(index, true), cosTheta, sqrt)
  {
    var ri := RelativeIndex(index, true);
    var sinSquared := 1.0 - cosTheta * cosTheta;
    if 0.0 <= sinSquared {
      SquareNonNegative(cosTheta);
      var s := sqrt(sinSquared);
      SqrtFacts(sqrt, sinSquared);
      RootAtMostOne(s);
      assert ri <= 1.0 by {
        assert ri * index == 1.0;
        assert ri == 1.0 / index;
      }
      ProductUnitBounded(ri, s);
    }
  }

  /** A non-negative number whose square is at most 1 is at most 1. */
  lemma RootAtMostOne(s: real)
    requires 0.0 <= s && s * s <= 1.0
    ensures s <= 1.0
  {
    if 1.0 < s {
      ProductPositive(s - 1.0, s);
    }
  }

  /** The normal-incidence reflectance `r0 = ((1 - n) / (1 + n))^2`. */
  function R0(refIdx: real): (r0: real)
    requires refIdx != -1.0
    ensures 0.0 < refIdx ==> 0.0 <= r0 < 1.0
    ensures refIdx == 1.0 ==> r0 == 0.0
  {
    var q := (1.0 - refIdx) / (1.0 + refIdx);
    assert 0.0 < refIdx ==> -1.0 < q < 1.0 by {
      assert q * (1.0 + refIdx) == 1.0 - refIdx;
    }
    if 0.0 < refIdx then OpenUnitSquare(q); q * q else q * q
  }

  /** A real strictly between -1 and 1 has a square in [0, 1). */
  lemma OpenUnitSquare(q: real)
    requires -1.0 < q < 1.0
    ensures 0.0 <= Square(q) < 1.0
  {
    SquareNonNegative(q);
    var a := Abs(q);
    assert Square(q) == Times(a, a);
    if 0.0 < a {
      ProductPositive(1.0 - a, a);
    }
  }

  /** `dielectric::reflectance`: Schlick's approximation
      `r0 + (1 - r0) (1 - cosine)^5`. */
  function Reflectance(cosine: real, refIdx: real): (r: real)
    requires refIdx != -1.0
    ensures cosine == 1.0 ==> r == R0(refIdx)
    ensures 0.0 < refIdx && 0.0 <= cosine <= 1.0 ==> R0(refIdx) <= r <= 1.0
  {
    var r0 := R0(refIdx);
    var p := Pow5(1.0 - cosine);
    if 0.0 < refIdx && 0.0 <= cosine <= 1.0 then
      ProductUnitBounded(p, 1.0 - r0);
      r0 + (1.0 - r0) * p
    else
      r0 + (1.0 - r0) * p
  }
}

=== FILE: options.dfy ===
/** The optional value that stands for the source's boolean-plus-out-parameter
    protocol: `None` is "returned false, output left as it was". */
module Options {

  datatype Option<+T> = None | Some(value: T)
}

=== FILE: rays.dfy ===
/** ray.h: a ray is an origin and a direction, `P(t) = origin + t * direction`. */
module Rays {
  import opened Vectors

  /** The direction need not have unit length. The accessors `origin()` and
      `direction()` are the datatype's destructors. */
  datatype Ray = Ray(origin: Point3, direction: Vec3)

  /** `at(t)`: the point reached after travelling `t` directions from the
      origin. */
  function At(r: Ray, t: real): (p: Point3)
    ensures t == 0.0 ==> p == r.origin
    ensures t == 1.0 ==> p == Add(r.origin, r.direction)
    ensures r.direction == Zero ==> p == r.origin
  {
    Add(r.origin, Scale(t, r.direction))
  }

  /** Moving along a ray is linear in the parameter. */
  lemma AtLinear(r: Ray, s: real, t: real)
    ensures At(r, s + t) == Add(At(r, s), Scale(t, r.direction))
  {
  }

  /** Distinct parameters give distinct points unless the direction is zero. */
  lemma AtInjective(r: Ray, s: real, t: real)
    requires r.direction != Zero && s != t
    ensures At(r, s) != At(r, t)
  {
    var d := r.direction;
    if d.x != 0.0 {
      assert (s - t) * d.x != 0.0;
    } else if d.y != 0.0 {
      assert (s - t) * d.y != 0.0;
    } else {
      assert (s - t) * d.z != 0.0;
    }
  }
}

=== FILE: surfaces.dfy ===
/** The two records shared by geometry and materials: the material variants
    of material.h and the hit record that sphere.h, hittableList.h,
    material.h and camera.h fill and read. */
module Surfaces {
  import opened Vectors

  /** `lambertian`, `metal` and `dielectric`, held by value. */
  datatype Material =
    | Lambertian(albedo: Color)
    | Metal(albedo: Color, fuzz: real)
    | Dielectric(indexOfRefraction: real)

  /** `hitRecord`: the point, the stored normal, the material, the ray
      parameter and the front-face flag. */
  datatype HitRecord = HitRecord(p: Point3, normal: Vec3, mat: Material, t: real, frontFace: bool)
}

=== FILE: vectors.dfy ===
/** vec3.h: three-component vectors used as points, directions and colours,
    and the acceptance tests of the random samplers. */
module Vectors {
  import opened Options
  import opened Elementary

  datatype Vec3 = Vec3(x: real, y: real, z: real)

  /** `point3` and `color` are aliases of `vec3` in the source. */
  type Point3 = Vec3
  type Color = Vec3

  const Zero: Vec3 := Vec3(0.0, 0.0, 0.0)

  /** The absolute threshold of `nearZero`, 1e-8. */
  const NearZeroThreshold: real := 0.00000001

  /** Every channel of a colour lies in [0, 1]. */
  predicate InUnitCube(c: Color) {
    0.0 <= c.x <= 1.0 && 0.0 <= c.y <= 1.0 && 0.0 <= c.z <= 1.0
  }

  function Add(u: Vec3, v: Vec3): Vec3 {
    Vec3(u.x + v.x, u.y + v.y, u.z + v.z)
  }

  function Sub(u: Vec3, v: Vec3): Vec3 {
    Vec3(u.x - v.x, u.y - v.y, u.z - v.z)
  }

  function Neg(v: Vec3): Vec3 {
    Vec3(-v.x, -v.y, -v.z)
  }

  /** Componentwise product, used to blend colours. */
  function Mul(u: Vec3, v: Vec3): Vec3 {
    Vec3(u.x * v.x, u.y * v.y, u.z * v.z)
  }

  /** The componentwise product of two colours in the unit cube stays in it. */
  lemma MulUnitCube(a: Color, b: Color)
    requires InUnitCube(a) && InUnitCube(b)
    ensures InUnitCube(Mul(a, b))
  {
    ProductUnitBounded(a.x, b.x);
    ProductUnitBounded(a.y, b.y);
    ProductUnitBounded(a.z, b.z);
  }

  /** `t * v`; the source defines `v * t` as this same product. */
  function Scale(t: real, v: Vec3): Vec3 {
    Vec3(t * v.x, t * v.y, t * v.z)
  }

  /** `v / t`, which the source computes as `(1 / t) * v`. */
  function Div(v: Vec3, t: real): (r: Vec3)
    requires t != 0.0
    ensures Scale(t, r) == v
  {
    Scale(1.0 / t, v)
  }

  function Dot(u: Vec3, v: Vec3): real {
    u.x * v.x + u.y * v.y + u.z * v.z
  }

  function LengthSquared(v: Vec3): (r: real)
    ensures 0.0 <= r
    ensures r == 0.0 <==> v == Zero
  {
    SquareNonNegative(v.x);
    SquareNonNegative(v.y);
    SquareNonNegative(v.z);
    Square(v.x) + Square(v.y) + Square(v.z)
  }

  function Cross(u: Vec3, v: Vec3): (w: Vec3)
    ensures Dot(w, u) == 0.0 && Dot(w, v) == 0.0
  {
    Vec3(u.y * v.z - u.z * v.y,
         u.z * v.x - u.x * v.z,
         u.x * v.y - u.y * v.x)
  }

  /** Lagrange's identity: |a x b|^2 = |a|^2 |b|^2 - (a.b)^2. */
  lemma CrossLength(a: Vec3, b: Vec3)
    ensures LengthSquared(Cross(a, b)) == LengthSquared(a) * LengthSquared(b) - Dot(a, b) * Dot(a, b)
  {
  }

  /** The cross product of two orthogonal unit vectors is a unit vector. */
  lemma CrossOfOrthonormal(a: Vec3, b: Vec3)
    requires LengthSquared(a) == 1.0 && LengthSquared(b) == 1.0 && Dot(a, b) == 0.0
    ensures LengthSquared(Cross(a, b)) == 1.0
  {
    CrossLength(a, b);
  }

  /** Completing a right-handed basis: `w x u` is a unit vector when `w`
      and `u` are orthogonal unit vectors. */
  lemma OrthonormalCross(w: Vec3, u: Vec3)
    requires Dot(u, w) == 0.0
    ensures LengthSquared(w) == 1.0 && LengthSquared(u) == 1.0 ==> LengthSquared(Cross(w, u)) == 1.0
  {
    if LengthSquared(w) == 1.0 && LengthSquared(u) == 1.0 {
      DotProperties(u, w);
      CrossOfOrthonormal(w, u);
    }
  }

  function Length(v: Vec3, sqrt: real -> real): real {
    sqrt(LengthSquared(v))
  }

  /** `v / v.length()`. For the zero vector the source divides 0 by 0 and
      yields NaN components; the model returns the zero vector instead. */
  function UnitVector(v: Vec3, sqrt: real -> real): (u: Vec3)
    ensures IsSqrt(sqrt) ==> Scale(Length(v, sqrt), u) == v
    ensures v == Zero ==> u == Zero
    ensures IsSqrt(sqrt) && v != Zero ==> LengthSquared(u) == 1.0
  {
    var len := Length(v, sqrt);
    if len == 0.0 then
      UnitVectorOfZeroLength(v, sqrt);
      v
    else
      UnitVectorOfPositiveLength(v, sqrt);
      assert Scale(1.0 / len, Zero) == Zero;
      Div(v, len)
  }

  /** Normalising a vector keeps it orthogonal to whatever it was
      orthogonal to. */
  lemma UnitVectorKeepsOrthogonal(v: Vec3, w: Vec3, sqrt: real -> real)
    requires Dot(v, w) == 0.0
    ensures Dot(UnitVector(v, sqrt), w) == 0.0
  {
    var len := Length(v, sqrt);
    if len != 0.0 {
      DotScale(1.0 / len, v, w);
    }
  }

  lemma UnitVectorOfZeroLength(v: Vec3, sqrt: real -> real)
    requires Length(v, sqrt) == 0.0
    ensures IsSqrt(sqrt) ==> v == Zero && Scale(0.0, v) == v
  {
    if IsSqrt(sqrt) {
      SqrtFacts(sqrt, LengthSquared(v));
    }
  }

  lemma UnitVectorOfPositiveLength(v: Vec3, sqrt: real -> real)
    requires Length(v, sqrt) != 0.0
    ensures IsSqrt(sqrt) ==> LengthSquared(Div(v, Length(v, sqrt))) == 1.0
  {
    if IsSqrt(sqrt) {
      SqrtFacts(sqrt, LengthSquared(v));
      UnitVectorLength(v, Length(v, sqrt));
    }
  }

  /** Dividing by a length whose square is the squared length gives a unit
      vector. */
  lemma UnitVectorLength(v: Vec3, len: real)
    requires len != 0.0
    ensures len * len == LengthSquared(v) ==> LengthSquared(Div(v, len)) == 1.0
  {
    var k := 1.0 / len;
    LengthSquaredScale(k, v);
    assert k * len == 1.0;
    assert k * k * (len * len) == (k * len) * (k * len);
    var q := LengthSquared(Div(v, len));
    assert q * (len * len) == LengthSquared(v);
    if len * len == LengthSquared(v) {
      assert len * len != 0.0;
      assert q == q * (len * len) / (len * len);
    }
  }

  /** Each component of a unit vector lies in [-1, 1]. */
  lemma UnitComponentsBounded(u: Vec3)
    requires LengthSquared(u) == 1.0
    ensures -1.0 <= u.x <= 1.0 && -1.0 <= u.y <= 1.0 && -1.0 <= u.z <= 1.0
  {
    SquareAtMostOne(u.x);
    SquareAtMostOne(u.y);
    SquareAtMostOne(u.z);
  }

  /** Every component of a normalised vector `u = UnitVector(v, sqrt)` lies
      in [-1, 1], the zero vector's stand-in included; the requires are what
      `UnitVector` promises for a valid `sqrt`. */
  lemma NormalisedComponentsBounded(v: Vec3, u: Vec3)
    requires v != Zero ==> LengthSquared(u) == 1.0
    requires v == Zero ==> u == Zero
    ensures -1.0 <= u.x <= 1.0 && -1.0 <= u.y <= 1.0 && -1.0 <= u.z <= 1.0
  {
    if v != Zero {
      UnitComponentsBounded(u);
    }
  }

  lemma SquareAtMostOne(a: real)
    ensures a * a <= 1.0 ==> -1.0 <= a <= 1.0
  {
    if 1.0 < a {
      assert 1.0 < a * a;
    } else if a < -1.0 {
      assert 1.0 < a * a;
    }
  }

  lemma SquareBelowOne(a: real)
    ensures a * a < 1.0 ==> -1.0 < a < 1.0
  {
    if 1.0 <= a {
      assert 1.0 <= a * a;
    } else if a <= -1.0 {
      assert 1.0 <= a * a;
    }
  }

  /** `nearZero`: every component is strictly below 1e-8 in absolute value. */
  predicate NearZero(v: Vec3)
    ensures NearZero(v) ==> LengthSquared(v) < 3.0 * NearZeroThreshold * NearZeroThreshold
    ensures !NearZero(v) ==> NearZeroThreshold * NearZeroThreshold <= LengthSquared(v)
  {
    SmallSquares(v);
    Abs(v.x) < NearZeroThreshold && Abs(v.y) < NearZeroThreshold && Abs(v.z) < NearZeroThreshold
  }

  lemma SmallSquares(v: Vec3)
    ensures Abs(v.x) < NearZeroThreshold ==> v.x * v.x < NearZeroThreshold * NearZeroThreshold
    ensures Abs(v.y) < NearZeroThreshold ==> v.y * v.y < NearZeroThreshold * NearZeroThreshold
    ensures Abs(v.z) < NearZeroThreshold ==> v.z * v.z < NearZeroThreshold * NearZeroThreshold
    ensures NearZeroThreshold <= Abs(v.x) ==> NearZeroThreshold * NearZeroThreshold <= v.x * v.x
    ensures NearZeroThreshold <= Abs(v.y) ==> NearZeroThreshold * NearZeroThreshold <= v.y * v.y
    ensures NearZeroThreshold <= Abs(v.z) ==> NearZeroThreshold * NearZeroThreshold <= v.z * v.z
  {
    SquareOrder(v.x);
    SquareOrder(v.y);
    SquareOrder(v.z);
  }

  lemma SquareOrder(a: real)
    ensures Abs(a) < NearZeroThreshold ==> a * a < NearZeroThreshold * NearZeroThreshold
    ensures NearZeroThreshold <= Abs(a) ==> NearZeroThreshold * NearZeroThreshold <= a * a
  {
    var b := Abs(a);
    assert a * a == b * b;
    if b < NearZeroThreshold {
      assert b * b <= b * NearZeroThreshold;
    } else {
      assert NearZeroThreshold * NearZeroThreshold <= b * NearZeroThreshold;
    }
  }

  /** `reflect(v, n) = v - 2 (v.n) n`. About a unit normal it negates the
      normal component and keeps the length. */
  function Reflect(v: Vec3, n: Vec3): (r: Vec3)
    ensures LengthSquared(n) == 1.0 ==> Dot(r, n) == -Dot(v, n)
    ensures LengthSquared(n) == 1.0 ==> LengthSquared(r) == LengthSquared(v)
  {
    var d := Dot(v, n);
    ReflectDot(v, n, 2.0 * d);
    ReflectLength(v, n, 2.0 * d);
    Sub(v, Scale(2.0 * d, n))
  }

  lemma ReflectDot(v: Vec3, n: Vec3, c: real)
    ensures Dot(Sub(v, Scale(c, n)), n) == Dot(v, n) - c * LengthSquared(n)
  {
    DotScale(c, n, n);
    DotProperties(n, n);
  }

  lemma ReflectLength(v: Vec3, n: Vec3, c: real)
    ensures LengthSquared(Sub(v, Scale(c, n)))
            == LengthSquared(v) - 2.0 * c * Dot(v, n) + c * c * LengthSquared(n)
  {
    var w := Scale(c, n);
    LengthSquaredSub(v, w);
    DotProperties(v, w);
    DotScale(c, n, v);
    DotProperties(n, v);
    LengthSquaredScale(c, n);
  }

  /** Reflecting twice about the same unit normal gives the vector back. */
  lemma ReflectInvolution(v: Vec3, n: Vec3)
    requires LengthSquared(n) == 1.0
    ensures Reflect(Reflect(v, n), n) == v
  {
    var r := Reflect(v, n);
    assert Dot(r, n) == -Dot(v, n);
  }

  /** `refract(uv, n, etaiOverEtat)`: Snell's law split into the component
      perpendicular to `n` and the one parallel to it. With a unit normal the
      result never points along the normal. */
  function Refract(uv: Vec3, n: Vec3, etaiOverEtat: real, sqrt: real -> real): (r: Vec3)
    ensures IsSqrt(sqrt) && LengthSquared(n) == 1.0 && -Dot(uv, n) <= 1.0 ==> Dot(r, n) <= 0.0
  {
    var cosTheta := Min(Dot(Neg(uv), n), 1.0);
    var perp := Scale(etaiOverEtat, Add(uv, Scale(cosTheta, n)));
    var s := sqrt(Abs(1.0 - LengthSquared(perp)));
    RefractAlgebra(uv, n, etaiOverEtat, cosTheta, s);
    Add(perp, Scale(-s, n))
  }

  lemma RefractAlgebra(uv: Vec3, n: Vec3, eta: real, c: real, s: real)
    ensures Dot(Add(Scale(eta, Add(uv, Scale(c, n))), Scale(-s, n)), n)
            == eta * (Dot(uv, n) + c * LengthSquared(n)) - s * LengthSquared(n)
  {
    var perp := Scale(eta, Add(uv, Scale(c, n)));
    DotAdd(perp, Scale(-s, n), n);
    DotScale(-s, n, n);
    DotScale(eta, Add(uv, Scale(c, n)), n);
    DotAdd(uv, Scale(c, n), n);
    DotScale(c, n, n);
  }

  /** Snell's law for a unit direction and a unit normal: the part of the
      result tangent to the surface is the incoming tangent scaled by the
      relative index `eta`, and unless the tangent would then be longer than
      1 (total internal reflection) the result is a unit vector. */
  lemma RefractSnell(uv: Vec3, n: Vec3, eta: real, sqrt: real -> real)
    requires IsSqrt(sqrt)
    requires LengthSquared(uv) == 1.0 && LengthSquared(n) == 1.0
    ensures var r := Refract(uv, n, eta, sqrt);
            Sub(r, Scale(Dot(r, n), n)) == Scale(eta, Sub(uv, Scale(Dot(uv, n), n)))
    ensures eta * eta * (1.0 - Dot(uv, n) * Dot(uv, n)) <= 1.0 ==> LengthSquared(Refract(uv, n, eta, sqrt)) == 1.0
  {
    var d := Dot(uv, n);
    var tangent := Sub(uv, Scale(d, n));
    var perp := Scale(eta, tangent);
    var x := 1.0 - LengthSquared(perp);
    var s := sqrt(Abs(x));
    assert Refract(uv, n, eta, sqrt) == Add(perp, Scale(-s, n)) by {
      RefractParts(uv, n, eta, sqrt);
    }
    assert Dot(perp, n) == 0.0 by {
      TangentOrthogonal(uv, n);
      DotScale(eta, tangent, n);
    }
    ScaledTangentLength(uv, n, eta);
    assert 0.0 <= x ==> s * s == x by {
      RootOfAbs(sqrt, x);
    }
    RefractDecomposed(n, perp, s);
  }

  /** The tangent of a unit vector scaled by `eta` has squared length
      `eta^2 (1 - cos^2)`. */
  lemma ScaledTangentLength(uv: Vec3, n: Vec3, eta: real)
    requires LengthSquared(uv) == 1.0 && LengthSquared(n) == 1.0
    ensures LengthSquared(Scale(eta, Sub(uv, Scale(Dot(uv, n), n))))
            == eta * eta * (1.0 - Dot(uv, n) * Dot(uv, n))
  {
    var d := Dot(uv, n);
    var tangent := Sub(uv, Scale(d, n));
    assert Add(uv, Scale(-d, n)) == tangent;
    TangentLength(uv, n);
    var l := LengthSquared(tangent);
    assert l == 1.0 - d * d;
    LengthSquaredScale(eta, tangent);
    assert LengthSquared(Scale(eta, tangent)) == eta * eta * l;
  }

  /** A vector `perp` orthogonal to the unit normal, plus `-s` times the
      normal, has tangential part `perp`; when `s` is the root of what
      `perp` leaves of 1 the sum is a unit vector. */
  lemma RefractDecomposed(n: Vec3, perp: Vec3, s: real)
    requires LengthSquared(n) == 1.0 && Dot(perp, n) == 0.0
    requires 0.0 <= 1.0 - LengthSquared(perp) ==> s * s == 1.0 - LengthSquared(perp)
    ensures var r := Add(perp, Scale(-s, n));
            Sub(r, Scale(Dot(r, n), n)) == perp
    ensures LengthSquared(perp) <= 1.0 ==> LengthSquared(Add(perp, Scale(-s, n))) == 1.0
  {
    var r := Add(perp, Scale(-s, n));
    DotAdd(perp, Scale(-s, n), n);
    DotScale(-s, n, n);
    DotProperties(n, n);
    assert Dot(r, n) == -s;
    assert Sub(r, Scale(-s, n)) == perp;
    DotScale(-s, n, perp);
    DotProperties(n, perp);
    DotProperties(perp, Scale(-s, n));
    assert Dot(perp, Scale(-s, n)) == 0.0;
    LengthSquaredScale(-s, n);
    LengthSquaredAdd(perp, Scale(-s, n));
  }

  /** `sqrt(fabs(x))` squares back to `x` when `x` is non-negative. */
  lemma RootOfAbs(sqrt: real -> real, x: real)
    requires IsSqrt(sqrt)
    ensures 0.0 <= x ==> sqrt(Abs(x)) * sqrt(Abs(x)) == x
  {
    if 0.0 <= x {
      SqrtFacts(sqrt, x);
    }
  }

  /** `refract` on a unit direction and a unit normal, with the clamped
      cosine resolved: the scaled tangent plus the normal part. */
  lemma RefractParts(uv: Vec3, n: Vec3, eta: real, sqrt: real -> real)
    requires LengthSquared(uv) == 1.0 && LengthSquared(n) == 1.0
    ensures var perp := Scale(eta, Sub(uv, Scale(Dot(uv, n), n)));
            Refract(uv, n, eta, sqrt) == Add(perp, Scale(-sqrt(Abs(1.0 - LengthSquared(perp))), n))
  {
    var d := Dot(uv, n);
    CosineBounded(uv, n);
    DotNeg(uv, n);
    assert Min(Dot(Neg(uv), n), 1.0) == -d;
    assert Add(uv, Scale(-d, n)) == Sub(uv, Scale(d, n));
  }

  /** Removing the normal component about a unit normal leaves a vector
      orthogonal to it. */
  lemma TangentOrthogonal(uv: Vec3, n: Vec3)
    requires LengthSquared(n) == 1.0
    ensures Dot(Sub(uv, Scale(Dot(uv, n), n)), n) == 0.0
  {
    ReflectDot(uv, n, Dot(uv, n));
  }

  /** With a relative index of 1 a unit direction arriving against a unit
      normal passes straight through. */
  lemma RefractMatchedIndex(uv: Vec3, n: Vec3, sqrt: real -> real)
    requires IsSqrt(sqrt)
    requires LengthSquared(uv) == 1.0 && LengthSquared(n) == 1.0
    requires Dot(uv, n) <= 0.0
    ensures Refract(uv, n, 1.0, sqrt) == uv
  {
    var c := -Dot(uv, n);
    MatchedCosine(uv, n);
    MatchedRoot(uv, n, sqrt);
    AddScaleCancel(uv, c, n);
    assert Refract(uv, n, 1.0, sqrt) == Add(Scale(1.0, Add(uv, Scale(c, n))), Scale(-c, n));
    assert Scale(1.0, Add(uv, Scale(c, n))) == Add(uv, Scale(c, n));
  }

  /** The clamped cosine `refract` computes for a unit direction arriving
      against a unit normal. */
  lemma MatchedCosine(uv: Vec3, n: Vec3)
    requires LengthSquared(uv) == 1.0 && LengthSquared(n) == 1.0
    requires Dot(uv, n) <= 0.0
    ensures Min(Dot(Neg(uv), n), 1.0) == -Dot(uv, n)
  {
    CosineBounded(uv, n);
    DotNeg(uv, n);
  }

  lemma DotNeg(u: Vec3, n: Vec3)
    ensures Dot(Neg(u), n) == -Dot(u, n)
  {
    assert Neg(u) == Vec3(-u.x, -u.y, -u.z);
  }

  /** The parallel component's length `refract` computes with a relative
      index of 1. */
  lemma MatchedRoot(uv: Vec3, n: Vec3, sqrt: real -> real)
    requires IsSqrt(sqrt)
    requires LengthSquared(uv) == 1.0 && LengthSquared(n) == 1.0
    requires Dot(uv, n) <= 0.0
    ensures sqrt(Abs(1.0 - LengthSquared(Scale(1.0, Add(uv, Scale(-Dot(uv, n), n)))))) == -Dot(uv, n)
  {
    var tangent := Add(uv, Scale(-Dot(uv, n), n));
    assert Scale(1.0, tangent) == tangent;
    TangentLength(uv, n);
    NormalComponentRoot(LengthSquared(tangent), Dot(uv, n), sqrt);
  }

  lemma AddScaleCancel(v: Vec3, c: real, n: Vec3)
    ensures Add(Add(v, Scale(c, n)), Scale(-c, n)) == v
  {
  }

  /** The square root `refract` takes when the tangent's squared length is
      1 - d^2 and d <= 0: it is -d, the cosine of the incidence angle. */
  lemma NormalComponentRoot(tangentSquared: real, d: real, sqrt: real -> real)
    requires IsSqrt(sqrt)
    requires d <= 0.0 && tangentSquared == 1.0 - d * d
    ensures sqrt(Abs(1.0 - tangentSquared)) == -d
  {
    var c := -d;
    assert 1.0 - tangentSquared == c * c;
    SquareNonNegative(c);
    assert Abs(1.0 - tangentSquared) == c * c;
    SqrtOfSquare(sqrt, c);
    assert sqrt(c * c) == c;
  }

  /** Removing the normal component of a unit vector about a unit normal
      leaves a tangent whose squared length is 1 - cos^2. */
  lemma TangentLength(uv: Vec3, n: Vec3)
    requires LengthSquared(uv) == 1.0 && LengthSquared(n) == 1.0
    ensures LengthSquared(Add(uv, Scale(-Dot(uv, n), n))) == 1.0 - Dot(uv, n) * Dot(uv, n)
  {
    var d := Dot(uv, n);
    assert Add(uv, Scale(-d, n)) == Sub(uv, Scale(d, n));
    ReflectLength(uv, n, d);
    CollectSquares(LengthSquared(Sub(uv, Scale(d, n))), d);
  }

  lemma CollectSquares(l: real, d: real)
    requires l == 1.0 - 2.0 * d * d + d * d * 1.0
    ensures l == 1.0 - d * d
  {
  }

  /** Cauchy-Schwarz for two unit vectors: their dot product is at most 1 in
      absolute value. */
  lemma CosineBounded(u: Vec3, n: Vec3)
    requires LengthSquared(u) == 1.0 && LengthSquared(n) == 1.0
    ensures -1.0 <= Dot(u, n) <= 1.0
  {
    LengthSquaredSub(u, n);
    LengthSquaredAdd(u, n);
  }

  /** One pass of `randomUnitVec3`'s rejection loop on a candidate drawn from
      the cube [-1,1)^3: the candidate is returned as it is, without
      normalisation, when 1e-8 < |p|^2 <= 1. */
  function AcceptUnitSample(p: Vec3): (r: Option<Vec3>)
    ensures r.Some? ==> r.value == p && IsUnitSample(p)
    ensures r.None? ==> !IsUnitSample(p)
  {
    if 0.00000001 < LengthSquared(p) && LengthSquared(p) <= 1.0 then Some(p) else None
  }

  /** What every sample returned by `randomUnitVec3` satisfies. */
  predicate IsUnitSample(p: Vec3) {
    0.00000001 < LengthSquared(p) <= 1.0
  }

  /** An accepted unit sample lies in the cube [-1,1]^3 and is not `nearZero`. */
  lemma UnitSampleProperties(p: Vec3)
    requires IsUnitSample(p)
    ensures -1.0 <= p.x <= 1.0 && -1.0 <= p.y <= 1.0 && -1.0 <= p.z <= 1.0
    ensures !NearZero(p)
  {
    SquareAtMostOne(p.x);
    SquareAtMostOne(p.y);
    SquareAtMostOne(p.z);
  }

  /** `randomOnHemisphere(normal)` given the unit sample it drew: the sample
      or its negation, whichever points away from the surface. */
  function RandomOnHemisphere(sample: Vec3, normal: Vec3): (r: Vec3)
    ensures r == sample || r == Neg(sample)
    ensures 0.0 <= Dot(r, normal)
    ensures LengthSquared(r) == LengthSquared(sample)
  {
    NegFacts(sample, normal);
    if Dot(sample, normal) > 0.0 then sample else Neg(sample)
  }

  lemma NegFacts(v: Vec3, w: Vec3)
    ensures Dot(Neg(v), w) == -Dot(v, w)
    ensures LengthSquared(Neg(v)) == LengthSquared(v)
  {
    assert Neg(v) == Scale(-1.0, v);
    DotScale(-1.0, v, w);
    LengthSquaredScale(-1.0, v);
  }

  /** One pass of `randomInUnitDisk`'s rejection loop on the candidate
      (dx, dy, 0) drawn from the square [-1,1)^2. */
  function AcceptDiskSample(dx: real, dy: real): (r: Option<Vec3>)
    ensures r.Some? ==> r.value == Vec3(dx, dy, 0.0) && IsDiskSample(r.value)
    ensures r.None? ==> !IsDiskSample(Vec3(dx, dy, 0.0))
  {
    var p := Vec3(dx, dy, 0.0);
    if LengthSquared(p) < 1.0 then Some(p) else None
  }

  /** What every sample returned by `randomInUnitDisk` satisfies. */
  predicate IsDiskSample(p: Vec3) {
    p.z == 0.0 && LengthSquared(p) < 1.0
  }

  /** An accepted disk sample lies strictly inside the square (-1,1)^2. */
  lemma DiskSampleInSquare(p: Vec3)
    requires IsDiskSample(p)
    ensures -1.0 < p.x < 1.0 && -1.0 < p.y < 1.0
  {
    SquareBelowOne(p.x);
    SquareBelowOne(p.y);
  }

  /** `dot` is symmetric and `lengthSquared` is the dot product of a vector
      with itself. */
  lemma DotProperties(u: Vec3, v: Vec3)
    ensures Dot(u, v) == Dot(v, u)
    ensures LengthSquared(u) == Dot(u, u)
  {
  }

  // Algebra of the vector operations, one identity per lemma.

  lemma DotAdd(u: Vec3, v: Vec3, w: Vec3)
    ensures Dot(Add(u, v), w) == Dot(u, w) + Dot(v, w)
  {
  }

  /** A multiple of a vector orthogonal to `w` is orthogonal to `w`. */
  lemma ScaleKeepsOrthogonal(k: real, u: Vec3, w: Vec3)
    requires Dot(u, w) == 0.0
    ensures Dot(Scale(k, u), w) == 0.0
  {
    DotScale(k, u, w);
  }

  lemma DotScale(k: real, u: Vec3, w: Vec3)
    ensures Dot(Scale(k, u), w) == k * Dot(u, w)
  {
    assert (k * u.x) * w.x == k * (u.x * w.x);
    assert (k * u.y) * w.y == k * (u.y * w.y);
    assert (k * u.z) * w.z == k * (u.z * w.z);
  }

  lemma LengthSquaredScale(k: real, v: Vec3)
    ensures LengthSquared(Scale(k, v)) == k * k * LengthSquared(v)
  {
    assert (k * v.x) * (k * v.x) == k * k * (v.x * v.x);
    assert (k * v.y) * (k * v.y) == k * k * (v.y * v.y);
    assert (k * v.z) * (k * v.z) == k * k * (v.z * v.z);
  }

  lemma LengthSquaredAdd(u: Vec3, v: Vec3)
    ensures LengthSquared(Add(u, v)) == LengthSquared(u) + 2.0 * Dot(u, v) + LengthSquared(v)
  {
    assert (u.x + v.x) * (u.x + v.x) == u.x * u.x + 2.0 * (u.x * v.x) + v.x * v.x;
    assert (u.y + v.y) * (u.y + v.y) == u.y * u.y + 2.0 * (u.y * v.y) + v.y * v.y;
    assert (u.z + v.z) * (u.z + v.z) == u.z * u.z + 2.0 * (u.z * v.z) + v.z * v.z;
  }

  lemma LengthSquaredSub(u: Vec3, v: Vec3)
    ensures LengthSquared(Sub(u, v)) == LengthSquared(u) - 2.0 * Dot(u, v) + LengthSquared(v)
  {
    assert (u.x - v.x) * (u.x - v.x) == u.x * u.x - 2.0 * (u.x * v.x) + v.x * v.x;
    assert (u.y - v.y) * (u.y - v.y) == u.y * u.y - 2.0 * (u.y * v.y) + v.y * v.y;
    assert (u.z - v.z) * (u.z - v.z) == u.z * u.z - 2.0 * (u.z * v.z) + v.z * v.z;
  }
}
